=== FILE: README.md ===
# Medal reward ledger — a Dafny model

This project models the core of a focus-time tracker that turns minutes of
focused work into medals (wood, steel, bronze, silver, gold). It proves
properties of that model. The model has three parts.

- **The `fix-rewards` ledger** (`cmd/fixrewards.go`). For each date it:
  - evaluates the day's focus goals against that day's focused minutes;
  - diffs the earned medals against the stored daily snapshot over the union of medal keys;
  - replaces the snapshot and accumulates the non-zero deltas.

  At the end of the run it adds the accumulated delta to the wallet once. The wallet step is skipped only when the accumulation has no keys. Deltas that cancel across days leave a zero entry, such as `{gold: 0}`, and then the wallet is still loaded and saved.
- **The two stores it relies on**, as abstract maps:
  - the daily snapshot store (`internal/storage/rewards.go`), a `map<Date, map<Medal,int>>` that is replaced, never merged, and never holds a zero count;
  - the wallet (`internal/storage/wallet.go`), a `map<Medal,int>` that is upserted and never loses a row.

  Each write is all-or-nothing. A failing step is an explicit fault parameter.
- **The `statistics` screen's logic** (`cmd/statistics.go`):
  - the "reached" test;
  - goals sorted by rest time;
  - the nearest rest time;
  - the level scan;
  - the last-seven-days buckets;
  - the sparkline quantiser.

Smaller pieces round it out:
- configuration validation (`internal/settings/settings.go`);
- the medal enum and its case-insensitive parser;
- the importer-type string round trip;
- the Super Productivity entity merge and timer expansion;
- the range check `ValidateRange`, at its integer instance.

Modelling conventions:
- Dates are day numbers, with 1970-01-01 as day 0, a Thursday. `WeekdayOf` follows Go's `time.Weekday` numbering, Sunday first.
- Clock times are integers ordered by `<`.
- Durations are nanosecond counts. `int(d.Minutes())` is modelled as the exact whole minutes, truncated toward zero. Go computes `Minutes()` in float64, which differs for very long durations (see `Durations.WholeMinutes` under "Left out").
- `time.Parse` and `time.ParseDuration` are function parameters.
- The wall clock is a parameter: today's date and weekday are passed in.
- A Go `range` over a map visits keys in an unspecified order:
  - results are stated as maps and sets;
  - where the order shows, as in `createBatchTimers`, the method picks keys with `:|`;
  - a ghost output names the entry behind each produced element.

Files, one module each:

| file | module | models |
|---|---|---|
| wrappers.dfy | Wrappers | `Option`, `Result`, `Outcome` for Go's `(value, error)` returns |
| sums.dfy | Sums | order-independent sum over a map (the conservation invariant's total) |
| medals.dfy | Medals | `Medal`, `LoadMedal`, medal-count maps |
| calendar.dfy | Calendar | dates, weekdays, clock readings |
| durations.dfy | Durations | duration sums and whole-minute truncation |
| settings.dfy | Settings | `weekdayMap`, goal / day-type / auto-import / config validation |
| range_check.dfy | RangeCheck | `ValidateRange` |
| importer_type.dfy | ImporterTypes | `ImporterType.String`, `GetImporterTypeByString` |
| super_productivity.dfy | SuperProductivity | `extractAllEntities`, `createBatchTimers`, `generateExternalId` |
| rewards_store.dfy | RewardsStore | `LoadByDate`, `ReplaceForDate` |
| wallet_store.dfy | WalletStore | wallet `Load`, `Save` |
| fix_rewards.dfy | FixRewards | flag modes, `processDay`, the wallet step, the whole run |
| ledger.dfy | Ledger | idempotence, conservation, the mid-range panic hazard |
| statistics.dfy | Statistics | the `statistics` command's computations |

Two behaviours of the code are worth knowing, and both are proved.

1. **A panic mid-range leaves the ledger inconsistent.** `fix-rewards` replaces each day's snapshot as it goes, but it updates the wallet only at the end. A store error on date k panics; the stores are then exactly as the run over dates before k left them, and the wallet is untouched (`Ledger.ProcessDaysPanicKeepsPrefix`, `FixRewards.Run`).
   - A rerun sees a zero delta for those days, so their medals never reach the wallet.
   - "Wallet = sum of snapshots" is therefore preserved only by runs that complete (`Ledger.CompletedRunConserves`).
   - A concrete two-day run shows the break and shows that it survives a clean rerun (`Ledger.PanicMidRangeBreaksConservation`, `Ledger.RerunAfterPanicStaysInconsistent`).
2. **Zero-minute goals are judged differently.**
   - `fix-rewards` awards a goal when `minutes >= goal.Minutes`, so a zero-minute goal is always earned.
   - The statistics screen tests `float64(current) / float64(target) >= 1`. For a zero target at zero minutes that is `NaN >= 1`, which is false (`Statistics.ZeroTargetAtZeroMinutesDiffers`).

The nearest rest time on the statistics screen is a plain minimum: the fallback `AlwaysRestAfter` and the rest time of every reached goal. The code does not interpolate between goals, and the model follows the code.

## Model

| member | source | states |
|---|---|---|
| FixRewards.Earned | cmd/fixrewards.go:64-70 | `earned` of `processDay`, folded from an empty map; its content is stated by `FixRewards.EarnedMatchesReference` |
| FixRewards.EarnedFrom | cmd/fixrewards.go:65-70 | the goals loop never drops a medal from the running count; the per-medal content is stated by `FixRewards.EarnedFromMatchesReference` |
| FixRewards.EarnedMatchesReference | cmd/fixrewards.go:64-70 | per medal, the earned count is the sum of `Count` over that medal's goals with `Minutes <= minutes`; the earned keys are exactly the medals of met goals |
| FixRewards.EarnedFromMatchesReference | cmd/fixrewards.go:65-70 | folding the goals into a running count adds, per medal, exactly the count of the met goals, and adds the met medals as keys |
| Calendar.WeekdayOf | cmd/fixrewards.go:47 | the weekday of a date counts from Sunday = 0, with 1970-01-01 a Thursday |
| FixRewards.ZeroMinuteGoalIsAlwaysMet | cmd/fixrewards.go:66-69 | a goal of zero minutes is always earned for non-negative minutes |
| FixRewards.Delta | cmd/fixrewards.go:77-84 | delta keys are the union of earned and previous keys, and previous + delta = earned for every medal, with missing keys read as 0 |
| FixRewards.Accumulate | cmd/fixrewards.go:105-110 | the accumulated count grows by the delta, and only a non-zero delta adds a key |
| FixRewards.ApplyToWallet | cmd/fixrewards.go:146-151 | `new[m] = old[m] + acc[m]`; other medals keep their value; the keys are the union |
| FixRewards.CommitWallet | cmd/fixrewards.go:136-154 | an accumulation without keys returns the wallet untouched; on success every medal's count is the old count plus the accumulated one; it fails iff the accumulation has keys (possibly all zero counts) and either the wallet load fails or the save hits one of its statements |
| FixRewards.SelectMode | cmd/fixrewards.go:26-31 | accepted iff exactly `--date`, or `--from` and `--to` without `--date`, are given |
| FixRewards.DaysFrom | cmd/fixrewards.go:131-133 | the range loop visits `end - start + 1` consecutive dates from `start`, each once |
| FixRewards.RunDays | cmd/fixrewards.go:113-134 | single mode processes the parsed date; range mode needs both dates to parse and `to >= from`, then processes every date from `from` to `to` inclusive |
| FixRewards.ProcessDay | cmd/fixrewards.go:46-111 | `processDay`: a panic names the date, happens only on a configured weekday, and leaves the snapshot store as it was; in every outcome no other date's rows change. Its effect, stability and balance are stated by `Ledger.ProcessDayEffect`, `Ledger.ProcessDayStable` and `Ledger.ProcessDayBalances` |
| FixRewards.ProcessDays | cmd/fixrewards.go:118-133 | the days loop stops at the first panic, which names one of the dates; its frame, reconciliation and balance are stated by `Ledger.ProcessDaysFrame`, `Ledger.ProcessDaysReconciles` and `Ledger.ProcessDaysBalances` |
| FixRewards.DayMinutes | cmd/fixrewards.go:58-62 | a date's minutes are the whole minutes of its summed timers, truncated: the largest count whose minutes fit in the total |
| FixRewards.Run | cmd/fixrewards.go:25-154 | `fix-rewards`: bad flags panic before anything changes; a panic never changes the wallet; a completed run adds exactly the reported delta to every medal. Conservation and idempotence are stated by `Ledger.CompletedRunConserves` and `Ledger.RerunAfterCompletedRunIsNoOp` |
| Ledger.RunCompletesIff | cmd/fixrewards.go:25-154 | a run completes iff the flags select a mode, its dates parse, every date passes, and the wallet step succeeds |
| Ledger.UnconfiguredDateIsSkipped | cmd/fixrewards.go:47-51 | a date whose weekday has no day type changes neither the store nor the accumulation |
| Ledger.ProcessDayPasses | cmd/fixrewards.go:46-111 | a day completes iff it is skipped or none of its store calls fails |
| Ledger.ProcessDayEffect | cmd/fixrewards.go:72-89 | after a processed configured day its stored snapshot is the non-zero part of the earned medals; other dates are untouched; well-formedness is kept |
| Ledger.ProcessDayStable | cmd/fixrewards.go:72-110 | a day whose snapshot already holds its reconciled value gives a zero delta and leaves the store unchanged |
| Ledger.ReconcileTwiceIsIdempotent | cmd/fixrewards.go:72-89 | reconciling the same date twice with unchanged timers and config changes nothing the second time |
| Ledger.ProcessDaysFrame | cmd/fixrewards.go:131-133 | a run never changes the snapshot of a date outside its range |
| Ledger.ProcessDaysReconciles | cmd/fixrewards.go:131-133 | after a completed date loop every configured date of the range holds its reconciled snapshot |
| Ledger.ProcessDaysStable | cmd/fixrewards.go:131-133 | a date loop over already reconciled dates is a no-op with zero delta |
| Ledger.ProcessDaysCompletesIffAllPass | cmd/fixrewards.go:118-133 | the days loop completes iff every one of its dates passes |
| Ledger.ProcessDaysPanicKeepsPrefix | cmd/fixrewards.go:118-133 | a panicking days loop stops at some date k: every earlier date passes, date k fails, and the store equals the one the run over the dates before k completes with |
| Ledger.RunDaysIncreasing | cmd/fixrewards.go:131 | the dates a run visits are strictly increasing |
| Ledger.RerunAfterCompletedRunIsNoOp | cmd/fixrewards.go:25-154 | repeating a completed run adds nothing and leaves snapshots and wallet unchanged |
| Ledger.ProcessDaysIgnoresWalletFaults | cmd/fixrewards.go:46-134 | the date phase does not touch the wallet store |
| Ledger.NoDeltaNoWalletAccess | cmd/fixrewards.go:136-139 | when no day produced a non-zero delta the wallet is neither loaded nor saved |
| Ledger.ReplaceMovesTotal | internal/storage/rewards.go:50-77 | a successful replace moves a medal's total over all snapshots by the new count minus the old one |
| Ledger.ProcessDayBalances | cmd/fixrewards.go:72-110 | each processed day moves the snapshot total by exactly what it adds to the accumulation |
| Ledger.ProcessDaysBalances | cmd/fixrewards.go:131-133 | snapshot total minus accumulation is invariant over the date loop |
| Ledger.CompletedRunConserves | cmd/fixrewards.go:25-154 | if the wallet equals the sum of the daily snapshots before a completed run, it does afterwards |
| Ledger.PanicMidRangeBreaksConservation | cmd/fixrewards.go:72-76 | a load failure on the second day of a range leaves the first day's snapshot written and the wallet unchanged, so the invariant breaks |
| Ledger.RerunAfterPanicStaysInconsistent | cmd/fixrewards.go:77-110 | a clean rerun of that range completes but sees zero delta for the first day and stays inconsistent |
| RewardsStore.LoadByDate | internal/storage/rewards.go:24-48 | a read error is an error; a never-written date gives an empty map; rows hold no zero counts |
| RewardsStore.ReplaceForDate | internal/storage/rewards.go:50-77 | a failure at any step leaves the store unchanged; otherwise the date holds exactly the non-zero entries; other dates are unchanged |
| RewardsStore.ReplaceThenLoad | internal/storage/rewards.go:57-71 | loading after a replace, at any time of the same day, returns exactly the non-zero entries written |
| RewardsStore.ReplaceWithEmptyClears | internal/storage/rewards.go:57-61 | replacing with an empty map removes the date's rows; loading gives an empty map |
| WalletStore.Load | internal/storage/wallet.go:23-49 | a read error is an error; otherwise the stored counts, keys included |
| WalletStore.Save | internal/storage/wallet.go:51-76 | on success every medal written holds its new count and others keep theirs, so nothing is deleted; on failure the wallet is unchanged |
| WalletStore.SaveOfLoadIsIdentity | internal/storage/wallet.go:23-76 | saving what was loaded leaves the wallet unchanged |
| WalletStore.ZeroCountsAreWritten | internal/storage/wallet.go:66-70 | unlike daily snapshots, a zero count is written as a row |
| Statistics.MakeGoalProgress | cmd/statistics.go:316-344 | the progress record keeps the goal's target, count, medal and rest time, so `GoalOf` recovers the goal, together with the current minutes; the bar's styling is not modelled |
| Statistics.Progresses | cmd/statistics.go:284-294 | one progress record per goal, in order, each recovering its goal and carrying the day's minutes |
| Statistics.Reached | cmd/statistics.go:362-364 | `getProgressCoef() >= 1` under IEEE 754; stated by `Statistics.ReachedIsQuotientAtLeastOne` (non-zero target) and `Statistics.ZeroTargetAtZeroMinutesDiffers` (zero target) |
| Statistics.ReachedIsQuotientAtLeastOne | cmd/statistics.go:362-364 | for a non-zero target the reached test is exactly `current / target >= 1` over the reals |
| Statistics.ZeroTargetAtZeroMinutesDiffers | cmd/statistics.go:362-364 | a zero-minute goal at zero minutes is not reached on screen but is earned by `fix-rewards` |
| Statistics.Insert | cmd/statistics.go:277-282 | inserting adds exactly one goal to the multiset |
| Statistics.InsertKeepsSorted | cmd/statistics.go:277-282 | insertion into a rest-time-sorted sequence keeps it sorted |
| Statistics.SortByRest | cmd/statistics.go:274-282 | the result is a permutation of the goals in non-decreasing rest-time order |
| Statistics.SortedPermutationsAgreeOnRestTimes | cmd/statistics.go:277-282 | any two sorted permutations agree on every rest time, so only the order among ties is open |
| Statistics.NearestRest | cmd/statistics.go:296-302 | the result is never later than the fallback or any reached goal's rest time, and equals the fallback or one of those |
| Statistics.NearestRestIgnoresOrder | cmd/statistics.go:296-302 | the nearest rest time does not depend on the order the goals are visited |
| Statistics.MakeNewStatisticsModel | cmd/statistics.go:266-305 | an error iff today's weekday has no day type; otherwise the goals are a sorted permutation of the day type's, and the nearest rest time is the minimum of the fallback and every reached goal's rest time |
| Statistics.MetPrefixLen | cmd/statistics.go:69-77 | the longest prefix of levels whose thresholds are all met |
| Statistics.CurrentLevel | cmd/statistics.go:66-78 | the level is the last one of the met prefix, or `0` and `""` when the first threshold is not met |
| Statistics.AscendingLevelsPickHighestMet | cmd/statistics.go:69-77 | with ascending thresholds a level is met iff it is in the scanned prefix |
| Statistics.LastSevenDays | cmd/statistics.go:80-101 | seven buckets, oldest first; bucket i holds the per-timer whole minutes of the timers dated `today - 6 + i` |
| Statistics.TimerOutsideWindowIsNotReported | cmd/statistics.go:93-101 | a timer dated outside the window changes no reported bucket |
| Statistics.BucketAtMostTruncatedDayTotal | cmd/statistics.go:93-96 | per-timer truncation never exceeds truncating the day's summed duration |
| Durations.WholeMinutes | cmd/statistics.go:51 | the whole minutes of a duration, truncated toward zero for both signs: the exact-arithmetic value of `int(d.Minutes())` |
| Durations.TruncationIsSuperadditive | cmd/statistics.go:61-64 | the truncated minutes of two non-negative durations sum to at most the truncated minutes of their sum |
| Durations.PerTimerMinutesAtMostTotalMinutes | cmd/statistics.go:45-64 | summing per-timer minutes gives at most the minutes of the summed duration |
| Statistics.RoundHalfAway | cmd/statistics.go:250 | `math.Round` of a quotient keeps the quotient's sign |
| Statistics.RoundHalfAwayIsNearest | cmd/statistics.go:250 | `math.Round` lands within half a step of the quotient, and ties go away from zero |
| Statistics.RoundHalfAwayIsMonotone | cmd/statistics.go:250 | rounding is monotone |
| Statistics.MaxOf | cmd/statistics.go:239-244 | the maximum starts from 0, bounds every value and is 0 or one of them |
| Statistics.RenderSparkline | cmd/statistics.go:233-263 | output length equals input length, every symbol is from the gradient, and an empty input gives `""` |
| Statistics.SparklineBlankExactlyForNonPositive | cmd/statistics.go:245-260 | a symbol is blank iff its value is not positive |
| Statistics.SparklineMaxIsTop | cmd/statistics.go:250-256 | the largest positive value renders as `@` |
| Statistics.SparklineIsMonotone | cmd/statistics.go:249-262 | a larger value never renders as a lower symbol |
| Statistics.SparklineOfZeros | cmd/statistics.go:245-247 | an all-zero input renders as spaces |
| Statistics.SparkIndex | cmd/statistics.go:250-260 | the symbol index stays inside the gradient and is non-zero iff the value is positive; `Statistics.SparkIndexIsNearestStep` states which step it picks |
| Statistics.SparkIndexIsNearestStep | cmd/statistics.go:250-260 | a positive value's symbol is the nearest of nine steps to `9v/max`, or the first visible symbol below half a step |
| Statistics.Statistics | cmd/statistics.go:28-108 | the command's totals, today's minutes, level and seven-day buckets agree with their reference definitions; there is an error iff today has no day type; otherwise the goals shown are today's goals sorted by rest time, and the nearest rest time is the minimum of the fallback and every reached goal's rest time |
| Settings.WeekdayByAbbrev | internal/settings/settings.go:15-23 | a string maps to weekday w iff it is w's lower-case three-letter abbreviation |
| Settings.WeekdayMapInjective | internal/settings/settings.go:15-23 | no two keys name the same weekday |
| Settings.WeekdayMapCaseSensitive | internal/settings/settings.go:51-54 | capitalised abbreviations are not weekdays |
| Settings.ValidateGoal | internal/settings/settings.go:114-145 | valid iff the strings are non-empty, minutes and count are in 0..1440, the medal parses and the rest time parses; the validated fields carry those values |
| Settings.ValidateGoals | internal/settings/settings.go:94-112 | fails iff some goal is invalid; on success every goal is validated in place |
| Settings.ValidateGoalsCollectsAllErrors | internal/settings/settings.go:101-109 | every invalid goal's error is reported, every reported error comes from a goal, at most one per goal |
| Settings.ValidateAutoImport | internal/settings/settings.go:164-179 | valid iff both fields are non-empty, the period parses and it is strictly positive |
| Settings.ValidateConfig | internal/settings/settings.go:35-72 | the phases fail in order: a day-type error iff some day type is invalid; then a calendar error iff some key is not a weekday or names an unknown day type; then a rest-time error iff the fallback rest time does not parse. Accepted iff every phase passes, including auto-import. On success every day type is named by its key, and every calendar key is stored under its weekday |
| Settings.NamedDayTypes | internal/settings/settings.go:41-47 | validation keeps the day-type keys and writes each key into its day type's name |
| Settings.ResolveCalendar | internal/settings/settings.go:49-60 | every calendar key is stored under the weekday it abbreviates, with the day type it names, and every weekday present comes from a key |
| Settings.ValidatedDayTypesAreNamedAndBounded | internal/settings/settings.go:41-47 | after validation every day type's name is its key and every goal is within its bounds |
| Settings.CalendarHasOneEntryPerKey | internal/settings/settings.go:49-60 | after validation the calendar has exactly as many entries as the file has `calendar` keys, because distinct keys land on distinct weekdays, so at most seven keys can pass |
| Medals.LoadMedal | internal/constnats/medals.go:27-33 | returns m iff the lower-cased input is m's name; otherwise an error quoting the input |
| Medals.LoadMedalRoundTrip | internal/constnats/medals.go:18-33 | each medal's string parses back to that medal |
| Medals.LoadMedalIgnoresCase | internal/constnats/medals.go:28 | an input and its lower-cased form parse alike |
| Medals.LoadMedalUpperCaseGold | internal/constnats/medals.go:28 | `"GOLD"` parses to gold |
| Medals.LoadMedalUnknown | internal/constnats/medals.go:29-31 | an unknown string gives an error together with the empty medal `""` |
| Medals.NamesAreDistinct | internal/constnats/medals.go:10-16 | the five medal constants are pairwise distinct |
| Medals.NonZero | internal/storage/rewards.go:63-66 | keeps exactly the entries with non-zero count |
| ImporterTypes.String | internal/imprt/constants.go:12-19 | the two declared types give `"spexport"` and `"spbackup"`, any other value `""` |
| ImporterTypes.ByString | internal/imprt/constants.go:24-33 | accepts exactly the two names, and the result stringifies back to the input |
| ImporterTypes.StringRoundTrip | internal/imprt/constants.go:24-29 | parsing a declared type's string gives the type back |
| ImporterTypes.UndeclaredTypeDoesNotRoundTrip | internal/imprt/constants.go:17-31 | an undeclared value stringifies to `""`, which is rejected together with 0 |
| ImporterTypes.ByStringIsCaseSensitive | internal/imprt/constants.go:25-31 | differently cased names are rejected |
| RangeCheck.ValidateRange | internal/utils/general.go:12-17 | for integers, an error iff `value < min` or `value > max`, so no error implies `min <= value <= max`; the error carries the value and both bounds |
| RangeCheck.EndpointsAccepted | internal/utils/general.go:13 | both endpoints of a non-empty range are accepted |
| RangeCheck.EmptyRangeRejectsAll | internal/utils/general.go:13 | when `min > max` every value is rejected |
| SuperProductivity.ExtractAllEntities | internal/imprt/superProductivityApp.go:100-125 | the keys are the union of the three maps; the young archive overrides the old one, which overrides the live tasks |
| SuperProductivity.ExternalId | internal/imprt/superProductivityApp.go:152-154 | `generateExternalId`; its layout and injectivity are stated by `SuperProductivity.ExternalIdLayout` and `SuperProductivity.ExternalIdInjective` |
| SuperProductivity.ExternalIdLayout | internal/imprt/superProductivityApp.go:152-154 | the id is `"SuperProductivity:" + taskId + ":" + dateStr`, with the date as its suffix |
| SuperProductivity.ExternalIdInjective | internal/imprt/superProductivityApp.go:152-154 | with colon-free dates, equal ids mean equal task and date |
| SuperProductivity.ExpandTask | internal/imprt/superProductivityApp.go:131-146 | fails iff some date of the task does not parse; otherwise one timer per date key, each key once |
| SuperProductivity.MakeTimer | internal/imprt/superProductivityApp.go:132-145 | the timer literal built for one (task, date) entry; `SuperProductivity.CreateBatchTimers` states that every produced timer is one of these |
| SuperProductivity.CreateBatchTimers | internal/imprt/superProductivityApp.go:127-150 | fails iff some date key does not parse; otherwise exactly one timer per (task, date) entry, so the count is the total of entries; each timer has no id or creation time, the task's title and notes, and milliseconds as duration |
| SuperProductivity.EnumerateKeys | internal/imprt/superProductivityApp.go:130-131 | a map `range` visits every key exactly once |

## Left out

- SQL, the driver, transactions as a mechanism, and migrations. Both stores are abstract maps. Each failing step (begin, delete, insert of a medal, upsert of a medal, commit, read) is a fault parameter.
- Row decoding failures inside `LoadByDate` and wallet `Load` (a scan error, or a stored medal string `LoadMedal` rejects) are folded into the single read-fault flag. Rows the model writes are always valid medals.
- `internal/storage/timer.go` is not part of this model. The timer source is an abstract per-date list of durations for `fix-rewards`, and given query results for `statistics`. `GetTimersBetweenDates` is not shown, so its window semantics are not modelled.
- `LoadConfig`, `SaveConfig`, YAML/JSON decoding and file I/O. Validation starts from already-decoded records, and the validator's struct tags are predicates.
- `Config.Validate` reports the first failing key in Go's random map order. Only the phase that fails (day types, calendar, rest time, auto-import) is modelled, not which key is named.
- `time.Parse`, `time.ParseDuration` and `time.Now()` are parameters. `AddDate` is day arithmetic on day numbers, with no time zones or DST.
- `Statistics.ReachedIsQuotientAtLeastOne`: the float division is modelled exactly, not in IEEE 754 arithmetic. It holds for minute counts far below 2^53.
- `Statistics.SparkIndex`: the float expression `float64(v) * 9 / float64(max)` is modelled as the exact rational. Rounding is exact for values far below 2^53.
- `Durations.WholeMinutes`: `time.Duration` is int64. Overflow of summed durations, and of the integer sums of counts and minutes, is not modelled.
- `Durations.WholeMinutes`: Go's `Duration.Minutes()` is `float64(min) + float64(nsec)/60e9`, and at 2^18 minutes and above (about 4369 hours) that float sum can round up to the next whole number. For example, 262144 minutes plus 59 999 999 999 ns gives 262145 in Go and 262144 here. The float64 rounding is not modelled, so for durations that long Go can report one minute more than the model. That affects today's minutes in `statistics`, the per-timer minutes behind the level and the seven-day buckets, and the day's minutes in `fix-rewards`.
- `RangeCheck.ValidateRange`: only the integer instance of the generic `ValidateRange[T constraints.Ordered]` is modelled. For a float64 instance a NaN value makes both comparisons false, so Go returns no error, and "no error implies `min <= value <= max`" does not hold there.
- `Medals.ToLower`, `Medals.LoadMedal`: lower-casing is ASCII only, while Go's `strings.ToLower` is Unicode-aware. For example Go lower-cases "SİLVER" (with U+0130) to "silver" and accepts it, but `Medals.LoadMedal` rejects it.
- `statistics.View`, `viewRestStatusBlock`, `GoalProgress.Show`, `formatKV`, the progress-bar gradients, Bubble Tea, lipgloss and cobra are left out as rendering.
- The printing in `fix-rewards` is left out as output only.
- `cmd/autoimport.go`, `cmd/stopwatch.go`, `cmd/import.go`, `cmd/settings.go`, `cmd/wallet.go` and the `utils` filesystem helpers are outside the modelled core.
- `Statistics.SortByRest` is one sorted permutation. The comparator leaves tie order unspecified, so the properties stated about it are sortedness and permutation; `Statistics.SortedPermutationsAgreeOnRestTimes` shows that every such ordering has the same rest times.
- `Config.Levels` is not shown. It is taken as a sequence of `(Lvl, Name, Threshold)` passed to `Statistics.CurrentLevel`.

=== FILE: calendar.dfy ===
/** Calendar dates and clock times. `time.Time` values are abstracted to the
    two things the core uses: the calendar date (the `DateLayout` string a
    record is keyed by) and an ordered clock reading. */
module Calendar {

  /** Days since 1970-01-01. */
  type Date = int

  /** A clock reading (a parsed `TimeLayout` value); `Before` is `<`. */
  type Clock = int

  /** Go's `time.Weekday`, Sunday first. */
  datatype Weekday = Sunday | Monday | Tuesday | Wednesday | Thursday | Friday | Saturday

  const AllWeekdays: set<Weekday> :=
    {Sunday, Monday, Tuesday, Wednesday, Thursday, Friday, Saturday}

  function WeekdayNumber(w: Weekday): int
  {
    match w
    case Sunday => 0
    case Monday => 1
    case Tuesday => 2
    case Wednesday => 3
    case Thursday => 4
    case Friday => 5
    case Saturday => 6
  }

  /** `d.Weekday()`: 1970-01-01 was a Thursday. */
  function WeekdayOf(d: Date): (w: Weekday)
    ensures WeekdayNumber(w) == (d + 4) % 7
  {
    match (d + 4) % 7
    case 0 => Sunday
    case 1 => Monday
    case 2 => Tuesday
    case 3 => Wednesday
    case 4 => Thursday
    case 5 => Friday
    case _ => Saturday
  }

  /** A point in time: its calendar date plus the nanoseconds into that day. */
  datatype Instant = Instant(date: Date, nanosOfDay: nat)

  /** `t.Format(DateLayout)`: only the calendar date survives. */
  function DayKey(t: Instant): Date
  {
    t.date
  }

  /** Midnight of a date, as `time.Parse(DateLayout, ...)` returns it. */
  function StartOfDay(d: Date): (t: Instant)
    ensures DayKey(t) == d
  {
    Instant(d, 0)
  }
}

=== FILE: durations.dfy ===
/** `time.Duration` arithmetic used by the core: summing timer durations and
    `int(d.Minutes())`. Durations are nanosecond counts. */
module Durations {

  const NanosPerMinute: int := 60_000_000_000

  /** `int(d.Minutes())` in exact arithmetic: whole minutes, truncated
      toward zero. Go's float64 `Minutes()` can round up from 2^18 minutes
      on; that is not modelled. */
  function WholeMinutes(ns: int): (m: int)
    ensures ns >= 0 ==> 0 <= m && m * NanosPerMinute <= ns < (m + 1) * NanosPerMinute
    ensures ns < 0 ==> m <= 0 && (m - 1) * NanosPerMinute < ns <= m * NanosPerMinute
  {
    if ns >= 0 then ns / NanosPerMinute else -((-ns) / NanosPerMinute)
  }

  /** The sum of durations, accumulated left to right as the Go loops do. */
  function TotalDuration(ds: seq<int>): int
  {
    if ds == [] then 0 else TotalDuration(ds[..|ds| - 1]) + ds[|ds| - 1]
  }

  /** The sum of each duration's whole minutes (per-timer truncation). */
  function MinutesPerTimer(ds: seq<int>): int
  {
    if ds == [] then 0 else MinutesPerTimer(ds[..|ds| - 1]) + WholeMinutes(ds[|ds| - 1])
  }

  lemma TruncationIsSuperadditive(a: int, b: int)
    requires a >= 0 && b >= 0
    ensures WholeMinutes(a) + WholeMinutes(b) <= WholeMinutes(a + b)
  {
    var ma, mb, m := WholeMinutes(a), WholeMinutes(b), WholeMinutes(a + b);
    assert (ma + mb) * NanosPerMinute <= a + b;
  }

  /** Truncating each timer before summing never gives more minutes than
      truncating the summed duration, for non-negative durations. */
  lemma {:induction false} PerTimerMinutesAtMostTotalMinutes(ds: seq<int>)
    requires forall i :: 0 <= i < |ds| ==> ds[i] >= 0
    ensures TotalDuration(ds) >= 0
    ensures MinutesPerTimer(ds) <= WholeMinutes(TotalDuration(ds))
  {
    if ds != [] {
      var init := ds[..|ds| - 1];
      PerTimerMinutesAtMostTotalMinutes(init);
      TruncationIsSuperadditive(TotalDuration(init), ds[|ds| - 1]);
    }
  }
}

=== FILE: fix_rewards.dfy ===
/** The `fix-rewards` command (cmd/fixrewards.go): flag-mode selection, the
    per-day reconciliation `processDay` (earned medals, union-key delta,
    snapshot replace, non-zero accumulation) and the single wallet update at
    the end of the run. Config loading is done beforehand (the validated
    calendar is an input), the timer store is an abstract per-date list of
    durations, and store failures are explicit in `Faults`. */
module FixRewards {
  import opened Wrappers
  import opened Medals
  import opened Calendar
  import opened Durations
  import opened Settings
  import RS = RewardsStore
  import WS = WalletStore

  // ---------------------------------------------------------------------
  // Earned medals

  /** The loop over the day's goals: a goal is met when
      `minutes >= goal.Minutes`, and its count is added under its medal. */
  function EarnedFrom(minutes: int, goals: seq<FocusGoal>, acc: Counts): (r: Counts)
    ensures acc.Keys <= r.Keys
    decreases |goals|
  {
    if goals == [] then acc
    else
      var g := goals[0];
      EarnedFrom(minutes, goals[1..],
                 if minutes >= g.minutes then acc[g.medal := Get(acc, g.medal) + g.count] else acc)
  }

  function Earned(minutes: int, goals: seq<FocusGoal>): Counts
  {
    EarnedFrom(minutes, goals, map[])
  }

  /** Reference: the total count over the goals for medal `m` that are met. */
  function EarnedCount(minutes: int, goals: seq<FocusGoal>, m: Medal): int
  {
    if goals == [] then 0
    else
      (if goals[0].medal == m && goals[0].minutes <= minutes then goals[0].count else 0)
      + EarnedCount(minutes, goals[1..], m)
  }

  /** The medals of the met goals. */
  function MetMedals(minutes: int, goals: seq<FocusGoal>): set<Medal>
  {
    set i | 0 <= i < |goals| && goals[i].minutes <= minutes :: goals[i].medal
  }

  lemma {:induction false} EarnedFromMatchesReference(minutes: int, goals: seq<FocusGoal>, acc: Counts)
    ensures forall m :: Get(EarnedFrom(minutes, goals, acc), m) == Get(acc, m) + EarnedCount(minutes, goals, m)
    ensures EarnedFrom(minutes, goals, acc).Keys == acc.Keys + MetMedals(minutes, goals)
    decreases |goals|
  {
    if goals != [] {
      var g := goals[0];
      var acc' := if minutes >= g.minutes then acc[g.medal := Get(acc, g.medal) + g.count] else acc;
      EarnedFromMatchesReference(minutes, goals[1..], acc');
      assert MetMedals(minutes, goals) ==
        (if minutes >= g.minutes then {g.medal} else {}) + MetMedals(minutes, goals[1..]) by {
        forall x | x in MetMedals(minutes, goals)
          ensures x in (if minutes >= g.minutes then {g.medal} else {}) + MetMedals(minutes, goals[1..])
        {
          var i :| 0 <= i < |goals| && goals[i].minutes <= minutes && goals[i].medal == x;
          if i > 0 {
            assert goals[1..][i - 1] == goals[i];
          }
        }
        forall x | x in MetMedals(minutes, goals[1..]) ensures x in MetMedals(minutes, goals)
        {
          var i :| 0 <= i < |goals[1..]| && goals[1..][i].minutes <= minutes && goals[1..][i].medal == x;
          assert goals[i + 1] == goals[1..][i];
        }
      }
    }
  }

  /** For every medal, the earned count is the sum of `Count` over the goals
      with that medal whose `Minutes` is at most the minutes focused; the
      earned medals are exactly those of the met goals (a met goal with count
      0 still creates its key). */
  lemma EarnedMatchesReference(minutes: int, goals: seq<FocusGoal>)
    ensures forall m :: Get(Earned(minutes, goals), m) == EarnedCount(minutes, goals, m)
    ensures Earned(minutes, goals).Keys == MetMedals(minutes, goals)
  {
    EarnedFromMatchesReference(minutes, goals, map[]);
  }

  /** A goal of zero minutes is always met once the minutes are not negative. */
  lemma ZeroMinuteGoalIsAlwaysMet(minutes: int, goals: seq<FocusGoal>, i: int)
    requires minutes >= 0 && 0 <= i < |goals| && goals[i].minutes == 0
    ensures goals[i].medal in Earned(minutes, goals)
  {
    EarnedMatchesReference(minutes, goals);
  }

  // ---------------------------------------------------------------------
  // Delta, accumulation, wallet application

  /** `delta[m] = earned[m] - prev[m]` over the union of both key sets:
      adding the delta to the previous snapshot gives the new one. */
  function Delta(earned: Counts, prev: Counts): (r: Counts)
    ensures r.Keys == earned.Keys + prev.Keys
    ensures forall m :: Get(prev, m) + Get(r, m) == Get(earned, m)
  {
    map m | m in earned.Keys + prev.Keys :: Get(earned, m) - Get(prev, m)
  }

  /** Adds a day's delta to the running total; a zero delta never adds a key. */
  function Accumulate(acc: Counts, delta: Counts): (r: Counts)
    ensures forall m :: Get(r, m) == Get(acc, m) + Get(delta, m)
    ensures r.Keys == acc.Keys + NonZero(delta).Keys
  {
    map m | m in acc.Keys + NonZero(delta).Keys :: Get(acc, m) + Get(delta, m)
  }

  /** `wallet[m] = wallet[m] + acc[m]` for every medal of `acc`; the rest of
      the wallet is kept. */
  function ApplyToWallet(wallet: Counts, acc: Counts): (r: Counts)
    ensures r.Keys == wallet.Keys + acc.Keys
    ensures forall m :: Get(r, m) == Get(wallet, m) + Get(acc, m)
    ensures forall m :: m in wallet && m !in acc ==> r[m] == wallet[m]
  {
    map m | m in wallet.Keys + acc.Keys :: Get(wallet, m) + Get(acc, m)
  }

  // ---------------------------------------------------------------------
  // Flags and the dates of a run

  datatype Flags = Flags(date: string, from: string, to: string)

  datatype Mode = Single(date: string) | Range(from: string, to: string)

  datatype RunError =
    | BadFlags
    | BadDate(input: string)
    | ToBeforeFrom
    | TimerQueryFailed(day: Date)
    | RewardsFailed(day: Date, storeError: RS.StoreError)
    | WalletFailed(walletError: WS.WalletError)

  /** Exactly one of `--date`, or both `--from` and `--to`. */
  function SelectMode(f: Flags): (r: Result<Mode, RunError>)
    ensures r.Ok? <==> (f.date != "" && f.from == "" && f.to == "") || (f.date == "" && f.from != "" && f.to != "")
    ensures r.Ok? && r.value.Single? ==> r.value.date == f.date && f.date != ""
    ensures r.Ok? && r.value.Range? ==> r.value == Range(f.from, f.to) && f.date == ""
    ensures r.Err? ==> r.error == BadFlags
  {
    if f.date != "" && f.from == "" && f.to == "" then Ok(Single(f.date))
    else if f.date == "" && f.from != "" && f.to != "" then Ok(Range(f.from, f.to))
    else Err(BadFlags)
  }

  /** The range loop `for d := start; !d.After(end); d = d.AddDate(0, 0, 1)`. */
  function DaysFrom(start: Date, end: Date): (r: seq<Date>)
    ensures |r| == if start <= end then end - start + 1 else 0
    ensures forall i :: 0 <= i < |r| ==> r[i] == start + i
    decreases end - start
  {
    if start > end then [] else [start] + DaysFrom(start + 1, end)
  }

  /** The dates a run processes: the single date, or every date from `--from`
      to `--to` inclusive; `--to` before `--from` is rejected. */
  function RunDays(mode: Mode, parseDate: string -> Option<Date>): (r: Result<seq<Date>, RunError>)
    ensures mode.Single? ==> (r.Ok? <==> parseDate(mode.date).Some?)
    ensures mode.Single? && r.Ok? ==> r.value == [parseDate(mode.date).value]
    ensures mode.Range? ==> (r.Ok? <==> parseDate(mode.from).Some? && parseDate(mode.to).Some?
                                         && parseDate(mode.from).value <= parseDate(mode.to).value)
    ensures mode.Range? && r.Ok? ==>
      |r.value| == parseDate(mode.to).value - parseDate(mode.from).value + 1
      && forall i :: 0 <= i < |r.value| ==> r.value[i] == parseDate(mode.from).value + i
  {
    match mode
    case Single(s) =>
      (match parseDate(s)
       case None => Err(BadDate(s))
       case Some(d) => Ok([d]))
    case Range(f, t) =>
      match parseDate(f)
      case None => Err(BadDate(f))
      case Some(start) =>
        match parseDate(t)
        case None => Err(BadDate(t))
        case Some(end) =>
          if end < start then Err(ToBeforeFrom) else Ok(DaysFrom(start, end))
  }

  // ---------------------------------------------------------------------
  // One day

  /** Where the stores fail during a run. */
  datatype Faults = Faults(
    timerQuery: set<Date>,
    rewardsLoad: set<Date>,
    rewardsReplace: map<Date, RS.ReplaceStep>,
    walletLoad: bool,
    walletSave: Option<WS.SaveStep>)

  const NoFaults: Faults := Faults({}, {}, map[], false, None)

  /** What the run reads: the validated calendar and, per date, the durations
      of that date's timers. */
  datatype Env = Env(calendar: map<Weekday, DayType>, timers: map<Date, seq<int>>, faults: Faults)

  function TimersOn(env: Env, d: Date): seq<int>
  {
    if d in env.timers then env.timers[d] else []
  }

  /** `int(total.Minutes())` of the date's summed timers. */
  function DayMinutes(env: Env, d: Date): (m: int)
    ensures var total := TotalDuration(TimersOn(env, d));
      total >= 0 ==> 0 <= m && m * NanosPerMinute <= total < (m + 1) * NanosPerMinute
  {
    WholeMinutes(TotalDuration(TimersOn(env, d)))
  }

  function ReplaceFault(env: Env, d: Date): Option<RS.ReplaceStep>
  {
    if d in env.faults.rewardsReplace then Some(env.faults.rewardsReplace[d]) else None
  }

  /** `DayOk` carries on; `DayPanic` is a `panic` mid-run, with the snapshot
      store as it was left. */
  datatype DayResult = DayOk(store: RS.Snapshots, acc: Counts) | DayPanic(store: RS.Snapshots, error: RunError)

  /** `processDay`. A panic leaves the snapshot store as it was (the
      replace transaction rolls back) and names the date; whatever happens,
      no other date's rows change. */
  function ProcessDay(env: Env, store: RS.Snapshots, acc: Counts, d: Date): (r: DayResult)
    ensures r.DayPanic? ==> r.store == store && WeekdayOf(d) in env.calendar
    ensures r.DayPanic? ==> (r.error.TimerQueryFailed? || r.error.RewardsFailed?) && r.error.day == d
    ensures forall e :: e != d ==> RS.Stored(r.store, e) == RS.Stored(store, e)
  {
    if WeekdayOf(d) !in env.calendar then DayOk(store, acc)
    else if d in env.faults.timerQuery then DayPanic(store, TimerQueryFailed(d))
    else
      var earned := Earned(DayMinutes(env, d), env.calendar[WeekdayOf(d)].goals);
      match RS.LoadByDate(store, StartOfDay(d), d in env.faults.rewardsLoad)
      case Err(e) => DayPanic(store, RewardsFailed(d, e))
      case Ok(prev) =>
        var delta := Delta(earned, prev);
        var replaced := RS.ReplaceForDate(store, StartOfDay(d), earned, ReplaceFault(env, d));
        if replaced.error.Some? then DayPanic(replaced.store, RewardsFailed(d, replaced.error.value))
        else DayOk(replaced.store, Accumulate(acc, delta))
  }

  /** The snapshot a configured date gets from reconciliation. */
  function Reconciled(env: Env, d: Date): Counts
    requires WeekdayOf(d) in env.calendar
  {
    NonZero(Earned(DayMinutes(env, d), env.calendar[WeekdayOf(d)].goals))
  }

  /** The days loop, stopping at the first panic, which names one of the
      dates. */
  function ProcessDays(env: Env, store: RS.Snapshots, acc: Counts, days: seq<Date>): (r: DayResult)
    ensures r.DayPanic? ==> (r.error.TimerQueryFailed? || r.error.RewardsFailed?)
    ensures r.DayPanic? ==> exists i :: 0 <= i < |days| && r.error.day == days[i]
    decreases |days|
  {
    if days == [] then DayOk(store, acc)
    else
      match ProcessDay(env, store, acc, days[0])
      case DayPanic(s, e) => DayPanic(s, e)
      case DayOk(s, a) => ProcessDays(env, s, a, days[1..])
  }

  // ---------------------------------------------------------------------
  // The run

  datatype State = State(snapshots: RS.Snapshots, wallet: WS.Wallet)

  datatype Status = Completed(added: Counts) | Panicked(error: RunError)

  datatype RunOutcome = RunOutcome(state: State, status: Status)

  /** The final step: nothing is loaded or saved when no day produced a
      non-zero delta; otherwise load, add, save once. */
  function CommitWallet(faults: Faults, wallet: WS.Wallet, acc: Counts): (r: Result<WS.Wallet, RunError>)
    ensures acc == map[] ==> r == Ok(wallet)
    ensures r.Ok? ==> forall m :: Get(r.value, m) == Get(wallet, m) + Get(acc, m)
    ensures r.Err? <==>
      acc != map[] && (faults.walletLoad || WS.SaveHits(faults.walletSave, ApplyToWallet(wallet, acc)))
  {
    if acc == map[] then Ok(wallet)
    else
      match WS.Load(wallet, faults.walletLoad)
      case Err(e) => Err(WalletFailed(e))
      case Ok(loaded) =>
        var saved := WS.Save(wallet, ApplyToWallet(loaded, acc), faults.walletSave);
        if saved.error.Some? then Err(WalletFailed(saved.error.value)) else Ok(saved.store)
  }

  /** `fix-rewards`: the date phase over the snapshot store, then the wallet phase. */
  function Run(flags: Flags, parseDate: string -> Option<Date>, env: Env, state: State): (r: RunOutcome)
    ensures SelectMode(flags).Err? ==> r == RunOutcome(state, Panicked(SelectMode(flags).error))
    ensures r.status.Panicked? ==> r.state.wallet == state.wallet
    ensures r.status.Completed? ==>
      forall m :: Get(r.state.wallet, m) == Get(state.wallet, m) + Get(r.status.added, m)
  {
    match SelectMode(flags)
    case Err(e) => RunOutcome(state, Panicked(e))
    case Ok(mode) =>
      match RunDays(mode, parseDate)
      case Err(e) => RunOutcome(state, Panicked(e))
      case Ok(days) =>
        match ProcessDays(env, state.snapshots, map[], days)
        case DayPanic(s, e) => RunOutcome(State(s, state.wallet), Panicked(e))
        case DayOk(s, acc) =>
          match CommitWallet(env.faults, state.wallet, acc)
          case Err(e) => RunOutcome(State(s, state.wallet), Panicked(e))
          case Ok(w) => RunOutcome(State(s, w), Completed(acc))
  }
}

=== FILE: importer_type.dfy ===
/** `ImporterType` and its string form (internal/imprt/constants.go). */
module ImporterTypes {
  import opened Wrappers

  /** Go's `type ImporterType int`; the two declared values are 0 and 1. */
  type ImporterType = int

  const SuperProductivityExport: ImporterType := 0
  const SuperProductivityBackup: ImporterType := 1

  /** `String()`: a lookup in `importerTypeMap`; any other value reads as
      the map's zero value `""`. */
  function String(t: ImporterType): (s: string)
    ensures t == SuperProductivityExport ==> s == "spexport"
    ensures t == SuperProductivityBackup ==> s == "spbackup"
    ensures t != SuperProductivityExport && t != SuperProductivityBackup ==> s == ""
  {
    if t == SuperProductivityExport then "spexport"
    else if t == SuperProductivityBackup then "spbackup"
    else ""
  }

  datatype ImporterTypeError = UnknownImporterType(input: string)

  /** `GetImporterTypeByString`: exact, case-sensitive match of the two names. */
  function ByString(s: string): (r: Result<ImporterType, ImporterTypeError>)
    ensures r.Ok? <==> s == "spexport" || s == "spbackup"
    ensures r.Ok? ==> String(r.value) == s
    ensures r.Err? ==> r.error == UnknownImporterType(s)
  {
    if s == String(SuperProductivityExport) then Ok(SuperProductivityExport)
    else if s == String(SuperProductivityBackup) then Ok(SuperProductivityBackup)
    else Err(UnknownImporterType(s))
  }

  /** The `ImporterType` Go returns next to the error: 0 on failure. */
  function ReturnedType(r: Result<ImporterType, ImporterTypeError>): ImporterType
  {
    if r.Ok? then r.value else 0
  }

  /** Parsing the string form of a declared type gives that type back. */
  lemma StringRoundTrip(t: ImporterType)
    requires t == SuperProductivityExport || t == SuperProductivityBackup
    ensures ByString(String(t)) == Ok(t)
  {
  }

  /** An undeclared value stringifies to `""`, which the parser rejects with 0. */
  lemma UndeclaredTypeDoesNotRoundTrip(t: ImporterType)
    requires t != SuperProductivityExport && t != SuperProductivityBackup
    ensures ByString(String(t)).Err? && ReturnedType(ByString(String(t))) == 0
  {
  }

  /** Differently-cased names are rejected. */
  lemma ByStringIsCaseSensitive()
    ensures ByString("SPEXPORT").Err? && ByString("SpBackup").Err?
  {
  }
}

=== FILE: ledger.dfy ===
/** Properties of the reward ledger across runs of `fix-rewards`:
    idempotence of reconciliation, conservation of "wallet = sum of daily
    snapshots" over completed runs, and the hazard a mid-range panic leaves. */
module Ledger {
  import opened Wrappers
  import opened Medals
  import opened Calendar
  import opened Settings
  import opened FixRewards
  import RS = RewardsStore
  import WS = WalletStore
  import Sums

  // ---------------------------------------------------------------------
  // Which days go through

  /** Whether `processDay` gets through date `d`: skipped, or no store call
      on the way fails. It does not depend on the stored state. */
  predicate Passes(env: Env, d: Date)
  {
    || WeekdayOf(d) !in env.calendar
    || (&& d !in env.faults.timerQuery
        && d !in env.faults.rewardsLoad
        && !RS.ReplaceHits(ReplaceFault(env, d), Earned(DayMinutes(env, d), env.calendar[WeekdayOf(d)].goals)))
  }

  /** A date with no day type for its weekday is skipped: no snapshot
      write and no delta. */
  lemma UnconfiguredDateIsSkipped(env: Env, store: RS.Snapshots, acc: Counts, d: Date)
    requires WeekdayOf(d) !in env.calendar
    ensures ProcessDay(env, store, acc, d) == DayOk(store, acc)
  {
  }

  lemma ProcessDayPasses(env: Env, store: RS.Snapshots, acc: Counts, d: Date)
    ensures ProcessDay(env, store, acc, d).DayOk? <==> Passes(env, d)
  {
  }

  /** A processed configured date holds its reconciled snapshot afterwards,
      and no other date's rows change. */
  lemma ProcessDayEffect(env: Env, store: RS.Snapshots, acc: Counts, d: Date)
    requires ProcessDay(env, store, acc, d).DayOk?
    ensures RS.WellFormed(store) ==> RS.WellFormed(ProcessDay(env, store, acc, d).store)
    ensures WeekdayOf(d) in env.calendar ==>
      RS.Stored(ProcessDay(env, store, acc, d).store, d) == Reconciled(env, d)
    ensures forall e :: e != d ==> RS.Stored(ProcessDay(env, store, acc, d).store, e) == RS.Stored(store, e)
  {
  }

  /** Reconciling a date whose stored snapshot already is its reconciled
      value changes nothing: zero delta, same store. */
  lemma ProcessDayStable(env: Env, store: RS.Snapshots, acc: Counts, d: Date)
    requires RS.WellFormed(store)
    requires Passes(env, d)
    requires WeekdayOf(d) in env.calendar ==> RS.Stored(store, d) == Reconciled(env, d)
    ensures ProcessDay(env, store, acc, d) == DayOk(store, acc)
  {
    if WeekdayOf(d) in env.calendar {
      var earned := Earned(DayMinutes(env, d), env.calendar[WeekdayOf(d)].goals);
      var prev := RS.LoadByDate(store, StartOfDay(d), false).value;
      assert prev == NonZero(earned);
      var delta := Delta(earned, prev);
      assert NonZero(delta) == map[];
      assert Accumulate(acc, delta) == acc;
      var replaced := RS.ReplaceForDate(store, StartOfDay(d), earned, ReplaceFault(env, d));
      assert replaced.store == store;
    }
  }

  /** Idempotence: reconciling the same date twice with the same timers and
      config gives an all-zero delta the second time and leaves the stored
      snapshot as the first call left it. */
  lemma ReconcileTwiceIsIdempotent(env: Env, store: RS.Snapshots, acc: Counts, acc2: Counts, d: Date)
    requires RS.WellFormed(store)
    requires ProcessDay(env, store, acc, d).DayOk?
    ensures var first := ProcessDay(env, store, acc, d);
      ProcessDay(env, first.store, acc2, d) == DayOk(first.store, acc2)
  {
    ProcessDayPasses(env, store, acc, d);
    ProcessDayEffect(env, store, acc, d);
    ProcessDayStable(env, ProcessDay(env, store, acc, d).store, acc2, d);
  }

  // ---------------------------------------------------------------------
  // Runs over several days

  predicate Increasing(days: seq<Date>)
  {
    forall i, j :: 0 <= i < j < |days| ==> days[i] < days[j]
  }

  /** Every configured date of `days` holds its reconciled snapshot. */
  predicate AllReconciled(env: Env, store: RS.Snapshots, days: seq<Date>)
  {
    forall i :: 0 <= i < |days| && WeekdayOf(days[i]) in env.calendar ==>
      RS.Stored(store, days[i]) == Reconciled(env, days[i])
  }

  /** The days loop completes exactly when every one of its dates passes. */
  lemma {:induction false} ProcessDaysCompletesIffAllPass(env: Env, store: RS.Snapshots, acc: Counts, days: seq<Date>)
    ensures ProcessDays(env, store, acc, days).DayOk? <==> forall i :: 0 <= i < |days| ==> Passes(env, days[i])
    decreases |days|
  {
    if days != [] {
      ProcessDayPasses(env, store, acc, days[0]);
      match ProcessDay(env, store, acc, days[0])
      case DayPanic(_, _) =>
      case DayOk(s, a) =>
        ProcessDaysCompletesIffAllPass(env, s, a, days[1..]);
        assert forall i :: 1 <= i < |days| ==> days[i] == days[1..][i - 1];
    }
  }

  /** The days loop panics on its `k`-th date: every earlier date passes,
      the `k`-th fails, and the store is exactly what the run over the
      first `k` dates left, so those dates are already replaced and the
      failing date is rolled back. */
  predicate PanicsAt(env: Env, store: RS.Snapshots, acc: Counts, days: seq<Date>, k: int)
  {
    && 0 <= k < |days|
    && (forall i :: 0 <= i < k ==> Passes(env, days[i]))
    && !Passes(env, days[k])
    && ProcessDays(env, store, acc, days[..k]).DayOk?
    && ProcessDays(env, store, acc, days).store == ProcessDays(env, store, acc, days[..k]).store
  }

  lemma ProcessDaysPanicKeepsPrefix(env: Env, store: RS.Snapshots, acc: Counts, days: seq<Date>)
    requires ProcessDays(env, store, acc, days).DayPanic?
    ensures exists k :: PanicsAt(env, store, acc, days, k)
  {
    var k := PanicIndex(env, store, acc, days);
  }

  /** The date a panicking days loop stops on. */
  lemma {:induction false} PanicIndex(env: Env, store: RS.Snapshots, acc: Counts, days: seq<Date>) returns (k: nat)
    requires ProcessDays(env, store, acc, days).DayPanic?
    ensures PanicsAt(env, store, acc, days, k)
    decreases |days|
  {
    ProcessDayPasses(env, store, acc, days[0]);
    var r0 := ProcessDay(env, store, acc, days[0]);
    if r0.DayPanic? {
      k := 0;
      assert ProcessDays(env, store, acc, days[..0]) == DayOk(store, acc);
    } else {
      var rest := days[1..];
      assert ProcessDays(env, store, acc, days) == ProcessDays(env, r0.store, r0.acc, rest);
      var k' := PanicIndex(env, r0.store, r0.acc, rest);
      k := k' + 1;
      PanicIndexStep(env, store, acc, days, r0.store, r0.acc, k');
    }
  }

  lemma PanicIndexStep(env: Env, store: RS.Snapshots, acc: Counts, days: seq<Date>, s: RS.Snapshots, a: Counts, k': nat)
    requires |days| > 0 && ProcessDay(env, store, acc, days[0]) == DayOk(s, a)
    requires Passes(env, days[0])
    requires PanicsAt(env, s, a, days[1..], k')
    ensures PanicsAt(env, store, acc, days, k' + 1)
  {
    var rest := days[1..];
    var k := k' + 1;
    assert days[..k][0] == days[0] && days[..k][1..] == rest[..k'];
    assert ProcessDays(env, store, acc, days[..k]) == ProcessDays(env, s, a, rest[..k']);
    assert ProcessDays(env, store, acc, days) == ProcessDays(env, s, a, rest);
    assert forall i :: 1 <= i < k ==> days[i] == rest[i - 1];
  }

  lemma {:induction false} ProcessDaysFrame(env: Env, store: RS.Snapshots, acc: Counts, days: seq<Date>, e: Date)
    requires ProcessDays(env, store, acc, days).DayOk?
    requires e !in days
    ensures RS.Stored(ProcessDays(env, store, acc, days).store, e) == RS.Stored(store, e)
    decreases |days|
  {
    if days != [] {
      var first := ProcessDay(env, store, acc, days[0]);
      ProcessDayEffect(env, store, acc, days[0]);
      ProcessDaysFrame(env, first.store, first.acc, days[1..], e);
    }
  }

  /** A run that gets through every date leaves each one reconciled. */
  lemma {:induction false} ProcessDaysReconciles(env: Env, store: RS.Snapshots, acc: Counts, days: seq<Date>)
    requires Increasing(days)
    requires ProcessDays(env, store, acc, days).DayOk?
    ensures RS.WellFormed(store) ==> RS.WellFormed(ProcessDays(env, store, acc, days).store)
    ensures AllReconciled(env, ProcessDays(env, store, acc, days).store, days)
    ensures forall i :: 0 <= i < |days| ==> Passes(env, days[i])
    decreases |days|
  {
    if days != [] {
      var d := days[0];
      var first := ProcessDay(env, store, acc, d);
      ProcessDayPasses(env, store, acc, d);
      ProcessDayEffect(env, store, acc, d);
      var rest := days[1..];
      ProcessDaysReconciles(env, first.store, first.acc, rest);
      ProcessDaysFrame(env, first.store, first.acc, rest, d);
      forall i | 0 <= i < |days| ensures Passes(env, days[i]) {
        if i > 0 { assert days[i] == rest[i - 1]; }
      }
      forall i | 0 <= i < |days| && WeekdayOf(days[i]) in env.calendar
        ensures RS.Stored(ProcessDays(env, store, acc, days).store, days[i]) == Reconciled(env, days[i])
      {
        if i > 0 { assert days[i] == rest[i - 1]; }
      }
    }
  }

  /** Over dates that are all reconciled and all get through, the loop
      changes nothing. */
  lemma {:induction false} ProcessDaysStable(env: Env, store: RS.Snapshots, acc: Counts, days: seq<Date>)
    requires RS.WellFormed(store)
    requires AllReconciled(env, store, days)
    requires forall i :: 0 <= i < |days| ==> Passes(env, days[i])
    ensures ProcessDays(env, store, acc, days) == DayOk(store, acc)
    decreases |days|
  {
    if days != [] {
      ProcessDayStable(env, store, acc, days[0]);
      var rest := days[1..];
      assert forall i :: 0 <= i < |rest| ==> rest[i] == days[i + 1];
      ProcessDaysStable(env, store, acc, rest);
    }
  }

  lemma RunDaysIncreasing(mode: Mode, parseDate: string -> Option<Date>)
    requires RunDays(mode, parseDate).Ok?
    ensures Increasing(RunDays(mode, parseDate).value)
  {
  }

  /** A second identical run after a completed one adds nothing to the
      wallet and leaves the whole state as the first run left it. */
  lemma RerunAfterCompletedRunIsNoOp(flags: Flags, parseDate: string -> Option<Date>, env: Env, state: State)
    requires RS.WellFormed(state.snapshots)
    requires Run(flags, parseDate, env, state).status.Completed?
    ensures var after := Run(flags, parseDate, env, state).state;
      Run(flags, parseDate, env, after) == RunOutcome(after, Completed(map[]))
  {
    var mode := SelectMode(flags).value;
    var days := RunDays(mode, parseDate).value;
    RunDaysIncreasing(mode, parseDate);
    var after := Run(flags, parseDate, env, state).state;
    ProcessDaysReconciles(env, state.snapshots, map[], days);
    ProcessDaysStable(env, after.snapshots, map[], days);
  }

  /** Whether the wallet store is reachable makes no difference to the day phase. */
  /** The accumulation of a finished days loop. */
  function AccOf(r: DayResult): Counts
  {
    if r.DayOk? then r.acc else map[]
  }

  /** A run completes exactly when the flags select a mode, its dates
      parse, every date passes, and the wallet step succeeds. */
  lemma RunCompletesIff(flags: Flags, parseDate: string -> Option<Date>, env: Env, state: State)
    ensures Run(flags, parseDate, env, state).status.Completed? <==>
      (&& SelectMode(flags).Ok?
       && RunDays(SelectMode(flags).value, parseDate).Ok?
       && var days := RunDays(SelectMode(flags).value, parseDate).value;
          && (forall i :: 0 <= i < |days| ==> Passes(env, days[i]))
          && CommitWallet(env.faults, state.wallet, AccOf(ProcessDays(env, state.snapshots, map[], days))).Ok?)
  {
    if SelectMode(flags).Ok? && RunDays(SelectMode(flags).value, parseDate).Ok? {
      var days := RunDays(SelectMode(flags).value, parseDate).value;
      ProcessDaysCompletesIffAllPass(env, state.snapshots, map[], days);
    }
  }

  lemma {:induction false} ProcessDaysIgnoresWalletFaults(env: Env, env': Env, store: RS.Snapshots, acc: Counts, days: seq<Date>)
    requires env'.calendar == env.calendar && env'.timers == env.timers
    requires env'.faults.timerQuery == env.faults.timerQuery
    requires env'.faults.rewardsLoad == env.faults.rewardsLoad
    requires env'.faults.rewardsReplace == env.faults.rewardsReplace
    ensures ProcessDays(env', store, acc, days) == ProcessDays(env, store, acc, days)
    decreases |days|
  {
    if days != [] {
      var first := ProcessDay(env, store, acc, days[0]);
      assert ProcessDay(env', store, acc, days[0]) == first;
      if first.DayOk? {
        ProcessDaysIgnoresWalletFaults(env, env', first.store, first.acc, days[1..]);
      }
    }
  }

  /** When no processed day produced a non-zero delta, the wallet is neither
      loaded nor saved: the run ends the same whatever the wallet store would
      have done, and the wallet is untouched. */
  lemma NoDeltaNoWalletAccess(flags: Flags, parseDate: string -> Option<Date>, env: Env, state: State,
                              walletLoad: bool, walletSave: Option<WS.SaveStep>)
    requires Run(flags, parseDate, env, state).status == Completed(map[])
    ensures var env' := env.(faults := env.faults.(walletLoad := walletLoad, walletSave := walletSave));
      && Run(flags, parseDate, env', state) == Run(flags, parseDate, env, state)
      && Run(flags, parseDate, env, state).state.wallet == state.wallet
  {
    var env' := env.(faults := env.faults.(walletLoad := walletLoad, walletSave := walletSave));
    var days := RunDays(SelectMode(flags).value, parseDate).value;
    ProcessDaysIgnoresWalletFaults(env, env', state.snapshots, map[], days);
  }

  // ---------------------------------------------------------------------
  // Conservation

  function MedalCount(m: Medal): Counts -> int
  {
    c => Get(c, m)
  }

  /** The sum of one medal's count over every stored daily snapshot. */
  ghost function Total(s: RS.Snapshots, m: Medal): int
  {
    Sums.MapSum(s, MedalCount(m))
  }

  /** The wallet holds, per medal, the sum of all daily snapshots. */
  ghost predicate Consistent(st: State)
  {
    forall m :: Get(st.wallet, m) == Total(st.snapshots, m)
  }

  /** A successful replace moves one medal's total by the new count minus the
      count previously stored for that date. */
  lemma ReplaceMovesTotal(s: RS.Snapshots, day: Instant, daily: Counts, fault: Option<RS.ReplaceStep>, m: Medal)
    requires !RS.ReplaceHits(fault, daily)
    ensures Total(RS.ReplaceForDate(s, day, daily, fault).store, m)
            == Total(s, m) - Get(RS.Stored(s, DayKey(day)), m) + Get(daily, m)
  {
    var k := DayKey(day);
    var rows := NonZero(daily);
    if rows == map[] {
      assert Get(daily, m) == Get(rows, m) == 0;
      if k in s {
        Sums.MapSumRemove(s, MedalCount(m), k);
      } else {
        assert s - {k} == s;
      }
    } else {
      Sums.MapSumUpdate(s, MedalCount(m), k, rows);
    }
  }

  /** Each reconciled day moves the snapshot total by exactly what it adds
      to the accumulated delta. */
  lemma ProcessDayBalances(env: Env, store: RS.Snapshots, acc: Counts, d: Date, m: Medal)
    requires ProcessDay(env, store, acc, d).DayOk?
    ensures var r := ProcessDay(env, store, acc, d);
      Total(r.store, m) - Get(r.acc, m) == Total(store, m) - Get(acc, m)
  {
    if WeekdayOf(d) in env.calendar {
      var earned := Earned(DayMinutes(env, d), env.calendar[WeekdayOf(d)].goals);
      ReplaceMovesTotal(store, StartOfDay(d), earned, ReplaceFault(env, d), m);
    }
  }

  lemma {:induction false} ProcessDaysBalances(env: Env, store: RS.Snapshots, acc: Counts, days: seq<Date>, m: Medal)
    requires ProcessDays(env, store, acc, days).DayOk?
    ensures var r := ProcessDays(env, store, acc, days);
      Total(r.store, m) - Get(r.acc, m) == Total(store, m) - Get(acc, m)
    decreases |days|
  {
    if days != [] {
      var first := ProcessDay(env, store, acc, days[0]);
      ProcessDayBalances(env, store, acc, days[0], m);
      ProcessDaysBalances(env, first.store, first.acc, days[1..], m);
    }
  }

  /** If the wallet equals the sum of the daily snapshots before a run that
      completes, it still does afterwards. */
  lemma CompletedRunConserves(flags: Flags, parseDate: string -> Option<Date>, env: Env, state: State)
    requires Consistent(state)
    requires Run(flags, parseDate, env, state).status.Completed?
    ensures Consistent(Run(flags, parseDate, env, state).state)
  {
    var days := RunDays(SelectMode(flags).value, parseDate).value;
    forall m {
      ProcessDaysBalances(env, state.snapshots, map[], days, m);
    }
  }

  // ---------------------------------------------------------------------
  // The hazard of a panic mid-range

  /** A calendar with one zero-minute gold goal on every weekday. */
  const GoldEveryDay: DayType := DayType("every", [FocusGoal(0, 0, 1, Gold)])

  const HazardEnv: Env :=
    Env(map w | w in AllWeekdays :: GoldEveryDay, map[], NoFaults.(rewardsLoad := {1}))

  const HazardFlags: Flags := Flags("", "from", "to")

  function HazardParse(s: string): Option<Date>
  {
    if s == "from" then Some(0) else if s == "to" then Some(1) else None
  }

  lemma TotalOfSingleton(d: Date, c: Counts, m: Medal)
    ensures Total(map[d := c], m) == Get(c, m)
  {
    Sums.MapSumRemove(map[d := c], MedalCount(m), d);
    assert map[d := c] - {d} == map[];
  }

  lemma AllWeekdaysConfigured(d: Date)
    ensures WeekdayOf(d) in HazardEnv.calendar
  {
    var w := WeekdayOf(d);
    assert w in AllWeekdays by {
      match w
      case Sunday => case Monday => case Tuesday => case Wednesday =>
      case Thursday => case Friday => case Saturday =>
    }
  }

  /** A range run that panics on its second day has already replaced the
      first day's snapshot but never updates the wallet: starting from an
      empty, consistent ledger it ends inconsistent. */
  lemma PanicMidRangeBreaksConservation()
    ensures Consistent(State(map[], map[]))
    ensures Run(HazardFlags, HazardParse, HazardEnv, State(map[], map[])).status.Panicked?
    ensures Run(HazardFlags, HazardParse, HazardEnv, State(map[], map[])).state
            == State(map[0 := map[Gold := 1]], map[])
    ensures !Consistent(Run(HazardFlags, HazardParse, HazardEnv, State(map[], map[])).state)
  {
    assert Total(map[], Gold) == 0;
    AllWeekdaysConfigured(0);
    AllWeekdaysConfigured(1);
    var earned := Earned(0, GoldEveryDay.goals);
    assert earned == map[Gold := 1];
    assert NonZero(earned) == map[Gold := 1];
    assert DayMinutes(HazardEnv, 0) == 0;
    var day0 := ProcessDay(HazardEnv, map[], map[], 0);
    assert day0 == DayOk(map[0 := map[Gold := 1]], map[Gold := 1]);
    assert ProcessDay(HazardEnv, day0.store, day0.acc, 1).DayPanic?;
    assert DaysFrom(0, 1) == [0, 1];
    assert SelectMode(HazardFlags) == Ok(Range("from", "to"));
    assert RunDays(Range("from", "to"), HazardParse) == Ok([0, 1]);
    assert ProcessDays(HazardEnv, map[], map[], [0, 1]) == ProcessDays(HazardEnv, day0.store, day0.acc, [1]);
    assert ProcessDays(HazardEnv, day0.store, day0.acc, [1]).DayPanic?;
    var out := Run(HazardFlags, HazardParse, HazardEnv, State(map[], map[]));
    assert out.state == State(map[0 := map[Gold := 1]], map[]);
    TotalOfSingleton(0, map[Gold := 1], Gold);
  }

  lemma CommitOneGold()
    ensures CommitWallet(NoFaults, map[], map[Gold := 1]) == Ok(map[Gold := 1])
  {
    var applied := ApplyToWallet(map[], map[Gold := 1]);
    assert applied.Keys == {Gold} && applied[Gold] == 1;
    assert applied == map[Gold := 1];
    assert WS.Load(map[], false) == Ok(map[]);
    var saved := WS.Save(map[], applied, None);
    assert saved.error.None?;
    assert saved.store.Keys == {Gold} && saved.store[Gold] == 1;
    assert saved.store == map[Gold := 1];
  }

  /** Day 0 of the fault-free rerun is already reconciled. */
  lemma HazardRerunDayZero()
    ensures ProcessDay(HazardEnv.(faults := NoFaults), map[0 := map[Gold := 1]], map[], 0)
            == DayOk(map[0 := map[Gold := 1]], map[])
  {
    var env := HazardEnv.(faults := NoFaults);
    AllWeekdaysConfigured(0);
    assert Earned(0, GoldEveryDay.goals) == map[Gold := 1];
    assert NonZero(map[Gold := 1]) == map[Gold := 1];
    assert DayMinutes(env, 0) == 0;
    var s0 := map[0 := map[Gold := 1]];
    assert RS.WellFormed(s0);
    assert RS.Stored(s0, 0) == Reconciled(env, 0);
    ProcessDayStable(env, s0, map[], 0);
  }

  /** Day 1 of the fault-free rerun earns its gold. */
  lemma HazardRerunDayOne()
    ensures ProcessDay(HazardEnv.(faults := NoFaults), map[0 := map[Gold := 1]], map[], 1)
            == DayOk(map[0 := map[Gold := 1], 1 := map[Gold := 1]], map[Gold := 1])
  {
    var env := HazardEnv.(faults := NoFaults);
    AllWeekdaysConfigured(1);
    var earned := Earned(0, GoldEveryDay.goals);
    assert earned == map[Gold := 1];
    assert NonZero(earned) == map[Gold := 1];
    assert DayMinutes(env, 1) == 0;
  }

  /** The date phase of the fault-free rerun. */
  lemma HazardRerunDays()
    ensures ProcessDays(HazardEnv.(faults := NoFaults), map[0 := map[Gold := 1]], map[], [0, 1])
            == DayOk(map[0 := map[Gold := 1], 1 := map[Gold := 1]], map[Gold := 1])
  {
    var env := HazardEnv.(faults := NoFaults);
    var s0 := map[0 := map[Gold := 1]];
    HazardRerunDayZero();
    HazardRerunDayOne();
    assert ProcessDays(env, s0, map[], [0, 1]) == ProcessDays(env, s0, map[], [1]);
  }

  /** The fault-free rerun of the hazard range, from the state the panic left. */
  lemma HazardRerun()
    ensures Run(HazardFlags, HazardParse, HazardEnv.(faults := NoFaults), State(map[0 := map[Gold := 1]], map[]))
            == RunOutcome(State(map[0 := map[Gold := 1], 1 := map[Gold := 1]], map[Gold := 1]), Completed(map[Gold := 1]))
  {
    assert DaysFrom(0, 1) == [0, 1];
    assert SelectMode(HazardFlags) == Ok(Range("from", "to"));
    assert RunDays(Range("from", "to"), HazardParse) == Ok([0, 1]);
    HazardRerunDays();
    CommitOneGold();
  }

  /** Rerunning the same range once the store works again does not repair
      it: the first day now shows a zero delta, so its medal never reaches
      the wallet. */
  lemma RerunAfterPanicStaysInconsistent()
    ensures var first := Run(HazardFlags, HazardParse, HazardEnv, State(map[], map[]));
      var second := Run(HazardFlags, HazardParse, HazardEnv.(faults := NoFaults), first.state);
      second.status.Completed? && !Consistent(second.state)
  {
    PanicMidRangeBreaksConservation();
    HazardRerun();
    var s0 := map[0 := map[Gold := 1]];
    var s1 := map[0 := map[Gold := 1], 1 := map[Gold := 1]];
    Sums.MapSumRemove(s1, MedalCount(Gold), 1);
    assert s1 - {1} == s0;
    TotalOfSingleton(0, map[Gold := 1], Gold);
    assert Total(s1, Gold) == 2;
  }
}

=== FILE: medals.dfy ===
/** The closed set of medals and its case-insensitive parser
    (internal/constnats/medals.go), plus the medal-to-count maps that the
    wallet, the daily snapshots and the deltas are made of. */
module Medals {
  import opened Wrappers

  datatype Medal = Wood | Steel | Bronze | Silver | Gold

  /** The Go string constant behind each medal. */
  function Name(m: Medal): string
  {
    match m
    case Wood => "wood"
    case Steel => "steel"
    case Bronze => "bronze"
    case Silver => "silver"
    case Gold => "gold"
  }

  /** ASCII lower-casing of one character; stands in for Go's Unicode
      `strings.ToLower`. */
  function LowerChar(c: char): char
  {
    if 'A' <= c <= 'Z' then (c as int + 32) as char else c
  }

  function ToLower(s: string): (r: string)
    ensures |r| == |s|
  {
    seq(|s|, i requires 0 <= i < |s| => LowerChar(s[i]))
  }

  datatype MedalError = UnknownMedal(input: string)

  /** `LoadMedal`: the medal whose name equals the lower-cased input,
      otherwise an error that quotes the original input. */
  function LoadMedal(s: string): (r: Result<Medal, MedalError>)
    ensures forall m: Medal :: r == Ok(m) <==> Name(m) == ToLower(s)
    ensures r.Err? <==> (forall m: Medal :: Name(m) != ToLower(s))
    ensures r.Err? ==> r.error == UnknownMedal(s)
  {
    var l := ToLower(s);
    if l == "wood" then Ok(Wood)
    else if l == "steel" then Ok(Steel)
    else if l == "bronze" then Ok(Bronze)
    else if l == "silver" then Ok(Silver)
    else if l == "gold" then Ok(Gold)
    else Err(UnknownMedal(s))
  }

  /** The `Medal` value Go returns next to the error: the parsed medal's
      string, or the empty medal `""` on failure. */
  function ReturnedMedal(r: Result<Medal, MedalError>): string
  {
    if r.Ok? then Name(r.value) else ""
  }

  lemma NamesAreDistinct(a: Medal, b: Medal)
    ensures Name(a) == Name(b) <==> a == b
  {
  }

  lemma {:induction false} ToLowerIdempotent(s: string)
    ensures ToLower(ToLower(s)) == ToLower(s)
  {
    var l := ToLower(s);
    forall i | 0 <= i < |s|
      ensures ToLower(l)[i] == l[i]
    {
      assert l[i] == LowerChar(s[i]);
    }
  }

  lemma LoadMedalRoundTrip(m: Medal)
    ensures LoadMedal(Name(m)) == Ok(m)
    ensures ReturnedMedal(LoadMedal(Name(m))) == Name(m)
  {
    match m
    case Wood => assert ToLower("wood") == "wood";
    case Steel => assert ToLower("steel") == "steel";
    case Bronze => assert ToLower("bronze") == "bronze";
    case Silver => assert ToLower("silver") == "silver";
    case Gold => assert ToLower("gold") == "gold";
  }

  /** Parsing ignores letter case: the input and its lower-cased form parse
      to the same medal, or both fail. */
  lemma LoadMedalIgnoresCase(s: string)
    ensures LoadMedal(s).Ok? <==> LoadMedal(ToLower(s)).Ok?
    ensures LoadMedal(s).Ok? ==> LoadMedal(s).value == LoadMedal(ToLower(s)).value
  {
    ToLowerIdempotent(s);
  }

  lemma LoadMedalUpperCaseGold()
    ensures LoadMedal("GOLD") == Ok(Gold)
  {
    assert ToLower("GOLD") == "gold";
  }

  /** An unknown string comes back as an error together with `""`. */
  lemma LoadMedalUnknown(s: string)
    requires forall m: Medal :: Name(m) != ToLower(s)
    ensures LoadMedal(s) == Err(UnknownMedal(s)) && ReturnedMedal(LoadMedal(s)) == ""
  {
  }

  // ---------------------------------------------------------------------
  // Medal-count maps (`models.WalletModel`)

  type Counts = map<Medal, int>

  /** Go's map read: a missing medal reads as 0. */
  function Get(w: Counts, m: Medal): int
  {
    if m in w then w[m] else 0
  }

  /** The entries of `w` with non-zero count. */
  function NonZero(w: Counts): (r: Counts)
    ensures forall m :: m in r <==> m in w && w[m] != 0
    ensures forall m :: Get(r, m) == Get(w, m)
  {
    map m | m in w && w[m] != 0 :: w[m]
  }
}

=== FILE: range_check.dfy ===
/** `utils.ValidateRange` (internal/utils/general.go), on integers. */
module RangeCheck {
  import opened Wrappers

  datatype RangeError = OutOfRange(value: int, min: int, max: int)

  /** Rejects a value above `max` or below `min`. */
  function ValidateRange(value: int, min: int, max: int): (r: Outcome<RangeError>)
    ensures r.Fail? <==> value < min || value > max
    ensures r.Pass? ==> min <= value <= max
    ensures r.Fail? ==> r.error == OutOfRange(value, min, max)
  {
    if value > max || value < min then Fail(OutOfRange(value, min, max)) else Pass
  }

  /** Both endpoints of a non-empty range are accepted. */
  lemma EndpointsAccepted(min: int, max: int)
    requires min <= max
    ensures ValidateRange(min, min, max).Pass? && ValidateRange(max, min, max).Pass?
  {
  }

  /** An empty range (`min > max`) accepts nothing. */
  lemma EmptyRangeRejectsAll(value: int, min: int, max: int)
    requires min > max
    ensures ValidateRange(value, min, max).Fail?
  {
  }
}

=== FILE: rewards_store.dfy ===
/** The `rewards_daily` table (internal/storage/rewards.go) as an abstract
    per-date map. A date is present exactly when it has stored rows, and a
    stored row never has a zero count. SQL and the transaction machinery are
    replaced by an explicit fault parameter naming the step that fails. */
module RewardsStore {
  import opened Wrappers
  import opened Medals
  import opened Calendar

  /** For each date key, the stored (medal, count) rows. */
  type Snapshots = map<Date, Counts>

  predicate WellFormed(s: Snapshots)
  {
    forall d :: d in s ==> s[d] != map[] && forall m :: m in s[d] ==> s[d][m] != 0
  }

  /** The statement of the replace transaction that fails, if any. */
  datatype ReplaceStep = Begin | Delete | Insert(medal: Medal) | Commit

  datatype StoreError = ReadFailed | ReplaceFailed(step: ReplaceStep)

  /** The rows stored for a date key, an empty map when there are none. */
  function Stored(s: Snapshots, d: Date): Counts
  {
    if d in s then s[d] else map[]
  }

  /** `LoadByDate`: the rows keyed by the instant's calendar date; an empty,
      non-nil map for a date never written. A failing query returns an error. */
  function LoadByDate(s: Snapshots, day: Instant, readFails: bool): (r: Result<Counts, StoreError>)
    ensures r.Err? <==> readFails
    ensures r.Ok? && DayKey(day) !in s ==> r.value == map[]
    ensures r.Ok? && WellFormed(s) ==> forall m :: m in r.value ==> r.value[m] != 0
  {
    if readFails then Err(ReadFailed) else Ok(Stored(s, DayKey(day)))
  }

  /** Whether a replace of `daily` actually reaches the failing statement:
      an insert fails only if that medal's row is inserted. */
  predicate ReplaceHits(fault: Option<ReplaceStep>, daily: Counts)
  {
    match fault
    case None => false
    case Some(Insert(m)) => m in daily && daily[m] != 0
    case Some(_) => true
  }

  datatype Replaced = Replaced(store: Snapshots, error: Option<StoreError>)

  /** `ReplaceForDate`: delete the date's rows, insert one row per non-zero
      count, commit; any failing statement rolls the whole transaction back. */
  function ReplaceForDate(s: Snapshots, day: Instant, daily: Counts, fault: Option<ReplaceStep>): (r: Replaced)
    ensures r.error.Some? <==> ReplaceHits(fault, daily)
    ensures r.error.Some? ==> r.store == s
    ensures r.error.None? ==> Stored(r.store, DayKey(day)) == NonZero(daily)
    ensures forall d :: d != DayKey(day) ==> (d in r.store <==> d in s) && Stored(r.store, d) == Stored(s, d)
    ensures WellFormed(s) ==> WellFormed(r.store)
  {
    if ReplaceHits(fault, daily) then Replaced(s, Some(ReplaceFailed(fault.value)))
    else
      var rows := NonZero(daily);
      var key := DayKey(day);
      if rows == map[] then Replaced(s - {key}, None)
      else Replaced(s[key := rows], None)
  }

  /** After a successful replace, loading any instant of the same calendar
      date returns exactly the non-zero entries written: nothing stale
      survives (replace, not merge). */
  lemma ReplaceThenLoad(s: Snapshots, day: Instant, daily: Counts, later: Instant)
    requires DayKey(later) == DayKey(day)
    ensures LoadByDate(ReplaceForDate(s, day, daily, None).store, later, false) == Ok(NonZero(daily))
  {
  }

  /** Replacing with an empty snapshot leaves the date empty. */
  lemma ReplaceWithEmptyClears(s: Snapshots, day: Instant)
    ensures LoadByDate(ReplaceForDate(s, day, map[], None).store, day, false) == Ok(map[])
    ensures DayKey(day) !in ReplaceForDate(s, day, map[], None).store
  {
  }
}

=== FILE: settings.dfy ===
/** Configuration validation (internal/settings/settings.go): goal bounds and
    medal parsing, per-day-type error collection, day-type naming, calendar
    resolution through the weekday abbreviations, and the auto-import period.
    YAML decoding is out of scope: the inputs are the already-decoded raw
    records, and `time.Parse` / `time.ParseDuration` are parameters. */
module Settings {
  import opened Wrappers
  import opened Medals
  import opened Calendar

  // ---------------------------------------------------------------------
  // weekdayMap

  /** `weekdayMap`: exactly the seven lower-case three-letter abbreviations. */
  function WeekdayByAbbrev(s: string): (r: Option<Weekday>)
    ensures forall w: Weekday :: r == Some(w) <==> s == Abbrev(w)
  {
    if s == "mon" then Some(Monday)
    else if s == "tue" then Some(Tuesday)
    else if s == "wed" then Some(Wednesday)
    else if s == "thu" then Some(Thursday)
    else if s == "fri" then Some(Friday)
    else if s == "sat" then Some(Saturday)
    else if s == "sun" then Some(Sunday)
    else None
  }

  function Abbrev(w: Weekday): string
  {
    match w
    case Monday => "mon"
    case Tuesday => "tue"
    case Wednesday => "wed"
    case Thursday => "thu"
    case Friday => "fri"
    case Saturday => "sat"
    case Sunday => "sun"
  }

  /** Two keys of `weekdayMap` never name the same weekday. */
  lemma WeekdayMapInjective(a: string, b: string)
    requires WeekdayByAbbrev(a).Some? && WeekdayByAbbrev(a) == WeekdayByAbbrev(b)
    ensures a == b
  {
  }

  /** Matching is case-sensitive. */
  lemma WeekdayMapCaseSensitive()
    ensures WeekdayByAbbrev("Mon") == None && WeekdayByAbbrev("MON") == None
  {
  }

  // ---------------------------------------------------------------------
  // FocusDayGoal

  /** A goal as decoded from YAML, before `Validate`. */
  datatype GoalSpec = GoalSpec(restAfterStr: string, minutes: int, count: int, medalStr: string)

  /** A validated goal: the fields `Validate` fills in, plus the bounded ints. */
  datatype FocusGoal = FocusGoal(restAfter: Clock, minutes: int, count: int, medal: Medal)

  datatype GoalError = TagViolation | BadMedal(medalError: MedalError) | BadRestTime(input: string)

  /** The struct tags: `required` strings are non-empty, and
      `gte=0,lte=1440` on both ints. */
  predicate GoalTagsHold(g: GoalSpec)
  {
    && g.restAfterStr != ""
    && 0 <= g.minutes <= 1440
    && 0 <= g.count <= 1440
    && g.medalStr != ""
  }

  /** `FocusDayGoal.Validate`: tags first, then the medal, then the rest time. */
  function ValidateGoal(g: GoalSpec, parseClock: string -> Option<Clock>): (r: Result<FocusGoal, GoalError>)
    ensures r.Ok? <==> GoalTagsHold(g) && LoadMedal(g.medalStr).Ok? && parseClock(g.restAfterStr).Some?
    ensures r == Err(TagViolation) <==> !GoalTagsHold(g)
    ensures r.Ok? ==>
      && 0 <= r.value.minutes <= 1440 && 0 <= r.value.count <= 1440
      && r.value.minutes == g.minutes && r.value.count == g.count
      && Name(r.value.medal) == ToLower(g.medalStr)
      && parseClock(g.restAfterStr) == Some(r.value.restAfter)
  {
    if !GoalTagsHold(g) then Err(TagViolation)
    else match LoadMedal(g.medalStr)
      case Err(e) => Err(BadMedal(e))
      case Ok(medal) =>
        match parseClock(g.restAfterStr)
        case None => Err(BadRestTime(g.restAfterStr))
        case Some(t) => Ok(FocusGoal(t, g.minutes, g.count, medal))
  }

  // ---------------------------------------------------------------------
  // DayType

  datatype DayType = DayType(name: string, goals: seq<FocusGoal>)

  /** `DayType.Validate`: every goal is validated and the errors of all the
      invalid ones are collected, in goal order. */
  function ValidateGoals(gs: seq<GoalSpec>, parseClock: string -> Option<Clock>): (r: Result<seq<FocusGoal>, seq<GoalError>>)
    ensures r.Err? <==> exists i :: 0 <= i < |gs| && ValidateGoal(gs[i], parseClock).Err?
    ensures r.Ok? ==> |r.value| == |gs|
    ensures r.Ok? ==> forall i :: 0 <= i < |gs| ==> ValidateGoal(gs[i], parseClock) == Ok(r.value[i])
  {
    if gs == [] then Ok([])
    else
      var head := ValidateGoal(gs[0], parseClock);
      var tail := ValidateGoals(gs[1..], parseClock);
      assert forall i :: 1 <= i < |gs| ==> gs[i] == gs[1..][i - 1];
      match (head, tail)
      case (Ok(f), Ok(fs)) => Ok([f] + fs)
      case (Ok(_), Err(es)) => Err(es)
      case (Err(e), Ok(_)) => Err([e])
      case (Err(e), Err(es)) => Err([e] + es)
  }

  /** The errors reported are exactly those of the invalid goals: each
      invalid goal's error is in the list, each listed error comes from a
      goal, and there is at most one per goal. */
  lemma {:induction false} ValidateGoalsCollectsAllErrors(gs: seq<GoalSpec>, parseClock: string -> Option<Clock>)
    requires ValidateGoals(gs, parseClock).Err?
    ensures var errs := ValidateGoals(gs, parseClock).error;
      && 1 <= |errs| <= |gs|
      && (forall i :: 0 <= i < |gs| && ValidateGoal(gs[i], parseClock).Err? ==> ValidateGoal(gs[i], parseClock).error in errs)
      && (forall e :: e in errs ==> exists i :: 0 <= i < |gs| && ValidateGoal(gs[i], parseClock) == Err(e))
  {
    var errs := ValidateGoals(gs, parseClock).error;
    var head := ValidateGoal(gs[0], parseClock);
    var tail := ValidateGoals(gs[1..], parseClock);
    assert forall i :: 1 <= i < |gs| ==> gs[i] == gs[1..][i - 1];
    if tail.Err? {
      ValidateGoalsCollectsAllErrors(gs[1..], parseClock);
      forall e | e in tail.error
        ensures exists i :: 0 <= i < |gs| && ValidateGoal(gs[i], parseClock) == Err(e)
      {
        var j :| 0 <= j < |gs[1..]| && ValidateGoal(gs[1..][j], parseClock) == Err(e);
        assert ValidateGoal(gs[j + 1], parseClock) == Err(e);
      }
    }
  }

  // ---------------------------------------------------------------------
  // AutoImportConfig

  datatype AutoImportSpec = AutoImportSpec(everyStr: string, path: string)
  /** `every` is a duration in nanoseconds. */
  datatype AutoImport = AutoImport(every: int, path: string)
  datatype AutoImportError = AutoImportTagViolation | BadDuration(input: string) | NonPositiveDuration(every: int)

  /** `AutoImportConfig.Validate`: both fields required, the period must
      parse and be strictly positive. */
  function ValidateAutoImport(a: AutoImportSpec, parseDuration: string -> Option<int>): (r: Result<AutoImport, AutoImportError>)
    ensures r.Ok? <==> (&& a.everyStr != "" && a.path != ""
                        && parseDuration(a.everyStr).Some? && parseDuration(a.everyStr).value > 0)
    ensures r.Ok? ==> r.value.every > 0 && Some(r.value.every) == parseDuration(a.everyStr) && r.value.path == a.path
  {
    if a.everyStr == "" || a.path == "" then Err(AutoImportTagViolation)
    else match parseDuration(a.everyStr)
      case None => Err(BadDuration(a.everyStr))
      case Some(d) =>
        if d <= 0 then Err(NonPositiveDuration(d))
        else Ok(AutoImport(d, a.path))
  }

  // ---------------------------------------------------------------------
  // Config

  datatype ConfigSpec = ConfigSpec(
    dayTypes: map<string, seq<GoalSpec>>,
    calendarRaw: map<string, string>,
    alwaysRestAfterStr: string,
    autoImport: AutoImportSpec)

  datatype Config = Config(
    dayTypes: map<string, DayType>,
    calendar: map<Weekday, DayType>,
    alwaysRestAfter: Clock,
    autoImport: AutoImport)

  /** Which phase of `Config.Validate` failed. The Go loops run over maps in
      random order, so which key is reported first is not modelled. */
  datatype ConfigError =
    | DayTypeInvalid
    | CalendarInvalid
    | RestTimeInvalid(input: string)
    | AutoImportInvalid(cause: AutoImportError)

  predicate DayTypesValid(c: ConfigSpec, parseClock: string -> Option<Clock>)
  {
    forall n :: n in c.dayTypes ==> ValidateGoals(c.dayTypes[n], parseClock).Ok?
  }

  /** Every calendar key is a weekday abbreviation and every value names a
      configured day type. */
  predicate CalendarResolves(c: ConfigSpec)
  {
    forall k :: k in c.calendarRaw ==> WeekdayByAbbrev(k).Some? && c.calendarRaw[k] in c.dayTypes
  }

  /** The validated day types, each carrying its own map key as `Name`. */
  function NamedDayTypes(c: ConfigSpec, parseClock: string -> Option<Clock>): (r: map<string, DayType>)
    requires DayTypesValid(c, parseClock)
    ensures r.Keys == c.dayTypes.Keys
    ensures forall n :: n in r ==> r[n].name == n
  {
    map n | n in c.dayTypes :: DayType(n, ValidateGoals(c.dayTypes[n], parseClock).value)
  }

  /** `Celendar`: one entry per calendar key, under the weekday it abbreviates. */
  function ResolveCalendar(c: ConfigSpec, dayTypes: map<string, DayType>): (r: map<Weekday, DayType>)
    requires CalendarResolves(c) && c.dayTypes.Keys == dayTypes.Keys
    ensures forall k :: k in c.calendarRaw ==>
      WeekdayByAbbrev(k).value in r && r[WeekdayByAbbrev(k).value] == dayTypes[c.calendarRaw[k]]
    ensures forall w :: w in r ==> Abbrev(w) in c.calendarRaw
  {
    map w | w in AllWeekdays && Abbrev(w) in c.calendarRaw :: dayTypes[c.calendarRaw[Abbrev(w)]]
  }

  /** `Config.Validate`. */
  function ValidateConfig(c: ConfigSpec, parseClock: string -> Option<Clock>, parseDuration: string -> Option<int>)
    : (r: Result<Config, ConfigError>)
    ensures r == Err(DayTypeInvalid) <==> !DayTypesValid(c, parseClock)
    ensures r == Err(CalendarInvalid) <==> DayTypesValid(c, parseClock) && !CalendarResolves(c)
    ensures r == Err(RestTimeInvalid(c.alwaysRestAfterStr)) <==>
      (DayTypesValid(c, parseClock) && CalendarResolves(c) && parseClock(c.alwaysRestAfterStr).None?)
    ensures r.Ok? <==>
      (&& DayTypesValid(c, parseClock) && CalendarResolves(c)
       && parseClock(c.alwaysRestAfterStr).Some? && ValidateAutoImport(c.autoImport, parseDuration).Ok?)
    ensures r.Ok? ==> parseClock(c.alwaysRestAfterStr) == Some(r.value.alwaysRestAfter)
    ensures r.Ok? ==> ValidateAutoImport(c.autoImport, parseDuration) == Ok(r.value.autoImport)
    ensures r.Ok? ==> r.value.dayTypes.Keys == c.dayTypes.Keys
    ensures r.Ok? ==> forall n :: n in r.value.dayTypes ==>
      r.value.dayTypes[n] == DayType(n, ValidateGoals(c.dayTypes[n], parseClock).value)
    ensures r.Ok? ==> forall k :: k in c.calendarRaw ==>
      && WeekdayByAbbrev(k).Some?
      && WeekdayByAbbrev(k).value in r.value.calendar
      && r.value.calendar[WeekdayByAbbrev(k).value] == r.value.dayTypes[c.calendarRaw[k]]
    ensures r.Ok? ==> forall w :: w in r.value.calendar ==> Abbrev(w) in c.calendarRaw
  {
    if !DayTypesValid(c, parseClock) then Err(DayTypeInvalid)
    else
      var dayTypes := NamedDayTypes(c, parseClock);
      if !CalendarResolves(c) then Err(CalendarInvalid)
      else
        var calendar := ResolveCalendar(c, dayTypes);
        match parseClock(c.alwaysRestAfterStr)
        case None => Err(RestTimeInvalid(c.alwaysRestAfterStr))
        case Some(rest) =>
          match ValidateAutoImport(c.autoImport, parseDuration)
          case Err(e) => Err(AutoImportInvalid(e))
          case Ok(a) => Ok(Config(dayTypes, calendar, rest, a))
  }

  /** After validation every day type's `Name` is its key, and every goal
      it holds satisfies the bounds of its struct tags. */
  lemma ValidatedDayTypesAreNamedAndBounded(c: ConfigSpec, parseClock: string -> Option<Clock>, parseDuration: string -> Option<int>)
    requires ValidateConfig(c, parseClock, parseDuration).Ok?
    ensures var cfg := ValidateConfig(c, parseClock, parseDuration).value;
      forall n :: n in cfg.dayTypes ==>
        && cfg.dayTypes[n].name == n
        && forall g :: g in cfg.dayTypes[n].goals ==> 0 <= g.minutes <= 1440 && 0 <= g.count <= 1440
  {
    var cfg := ValidateConfig(c, parseClock, parseDuration).value;
    forall n | n in cfg.dayTypes
      ensures forall g :: g in cfg.dayTypes[n].goals ==> 0 <= g.minutes <= 1440 && 0 <= g.count <= 1440
    {
      var gs := c.dayTypes[n];
      var fs := ValidateGoals(gs, parseClock).value;
      assert cfg.dayTypes[n].goals == fs;
      forall g | g in fs
        ensures 0 <= g.minutes <= 1440 && 0 <= g.count <= 1440
      {
        var i :| 0 <= i < |fs| && fs[i] == g;
        assert ValidateGoal(gs[i], parseClock) == Ok(g);
      }
    }
  }

  /** A validated calendar has exactly one entry per `calendar` key of the
      file: distinct keys land on distinct weekdays, so the file can name at
      most seven. */
  lemma CalendarHasOneEntryPerKey(c: ConfigSpec, parseClock: string -> Option<Clock>, parseDuration: string -> Option<int>)
    requires ValidateConfig(c, parseClock, parseDuration).Ok?
    ensures |ValidateConfig(c, parseClock, parseDuration).value.calendar| == |c.calendarRaw|
    ensures |c.calendarRaw| <= 7
  {
    var cal := ValidateConfig(c, parseClock, parseDuration).value.calendar;
    assert c.calendarRaw.Keys == AbbrevsOf(cal.Keys) by {
      forall k | k in c.calendarRaw ensures k in AbbrevsOf(cal.Keys) {
        var w := WeekdayByAbbrev(k).value;
        assert Abbrev(w) == k;
      }
    }
    AbbrevsOfCardinality(cal.Keys);
    WeekdaySetsHaveAtMostSeven(cal.Keys);
  }

  /** The abbreviations of a set of weekdays. */
  function AbbrevsOf(ws: set<Weekday>): set<string>
  {
    set w | w in ws :: Abbrev(w)
  }

  lemma {:induction false} AbbrevsOfCardinality(ws: set<Weekday>)
    ensures |AbbrevsOf(ws)| == |ws|
    decreases |ws|
  {
    if ws != {} {
      var w :| w in ws;
      var rest := ws - {w};
      AbbrevsOfCardinality(rest);
      assert AbbrevsOf(ws) == AbbrevsOf(rest) + {Abbrev(w)};
      assert Abbrev(w) !in AbbrevsOf(rest) by {
        forall v | v in rest ensures Abbrev(v) != Abbrev(w) {
          assert WeekdayByAbbrev(Abbrev(v)) == Some(v);
        }
      }
    } else {
      assert AbbrevsOf(ws) == {};
    }
  }

  lemma WeekdaySetsHaveAtMostSeven(ws: set<Weekday>)
    ensures |ws| <= 7
  {
    assert ws <= AllWeekdays by {
      forall w | w in ws ensures w in AllWeekdays {
        match w
        case Sunday => case Monday => case Tuesday => case Wednesday =>
        case Thursday => case Friday => case Saturday =>
      }
    }
    assert |AllWeekdays| == 7;
    CardinalitySubset(ws, AllWeekdays);
  }

  lemma CardinalitySubset<T>(a: set<T>, b: set<T>)
    requires a <= b
    ensures |a| <= |b|
  {
    assert b == a + (b - a);
  }
}

=== FILE: statistics.dfy ===
/** The display logic of the `statistics` command (cmd/statistics.go): the
    reached test behind `getProgressCoef() >= 1`, the goals sorted by rest
    time, the nearest rest time, the level scan, the last-seven-days buckets
    and the sparkline quantiser. The clock, the timer queries and the
    terminal UI are outside the model: today's date and weekday and the
    query results are inputs. */
module Statistics {
  import opened Wrappers
  import opened Medals
  import opened Calendar
  import opened Durations
  import opened Settings
  import FixRewards

  // ---------------------------------------------------------------------
  // Goal progress and the reached test

  datatype GoalProgress = GoalProgress(
    targetMinutes: int,
    currentMinutes: int,
    medalCount: int,
    medal: Medal,
    restAfter: Clock)

  /** `MakeGoalProgress` without the progress-bar styling. */
  function MakeGoalProgress(g: FocusGoal, currentMinutes: int): (p: GoalProgress)
    ensures GoalOf(p) == g && p.currentMinutes == currentMinutes
  {
    GoalProgress(g.minutes, currentMinutes, g.count, g.medal, g.restAfter)
  }

  /** The goal a progress entry was made from. */
  function GoalOf(p: GoalProgress): FocusGoal
  {
    FocusGoal(p.restAfter, p.targetMinutes, p.medalCount, p.medal)
  }

  /** `float64(current) / float64(target) >= 1` under IEEE 754: a positive
      target is reached from `target` minutes on; a zero target gives
      `+Inf` for positive minutes and `NaN` (never `>= 1`) for zero; a
      negative target divides by a negative number. */
  predicate Reached(current: int, target: int)
  {
    if target > 0 then current >= target
    else if target == 0 then current > 0
    else current <= target
  }

  predicate ProgressReached(p: GoalProgress)
  {
    Reached(p.currentMinutes, p.targetMinutes)
  }

  /** For a non-zero target the reached test is the exact quotient test. */
  lemma ReachedIsQuotientAtLeastOne(current: int, target: int)
    requires target != 0
    ensures Reached(current, target) <==> (current as real) / (target as real) >= 1.0
  {
    var q := (current as real) / (target as real);
    assert q * (target as real) == current as real;
    if target > 0 {
      if q >= 1.0 {
        assert q * (target as real) >= 1.0 * (target as real);
      } else {
        assert q * (target as real) < 1.0 * (target as real);
      }
    } else {
      if q >= 1.0 {
        assert q * (target as real) <= 1.0 * (target as real);
      } else {
        assert q * (target as real) > 1.0 * (target as real);
      }
    }
  }

  /** The display and the ledger disagree on a zero-minute goal at zero
      minutes: `fix-rewards` awards its medal, the statistics screen does
      not show it as reached. */
  lemma ZeroTargetAtZeroMinutesDiffers(g: FocusGoal)
    requires g.minutes == 0
    ensures !Reached(0, g.minutes)
    ensures g.medal in FixRewards.Earned(0, [g])
  {
    FixRewards.ZeroMinuteGoalIsAlwaysMet(0, [g], 0);
  }

  // ---------------------------------------------------------------------
  // Sorting the goals by rest time

  /** Ordered by non-decreasing `RestAfter`. */
  predicate SortedByRest(gs: seq<FocusGoal>)
  {
    forall i, j :: 0 <= i < j < |gs| ==> gs[i].restAfter <= gs[j].restAfter
  }

  /** A goal no later than the head of a sorted sequence can go in front. */
  lemma ConsSorted(g: FocusGoal, s: seq<FocusGoal>)
    requires SortedByRest(s) && (s == [] || g.restAfter <= s[0].restAfter)
    ensures SortedByRest([g] + s)
  {
    forall i, j | 0 <= i < j < |[g] + s| ensures ([g] + s)[i].restAfter <= ([g] + s)[j].restAfter
    {
      if i == 0 {
        assert ([g] + s)[j] == s[j - 1];
      } else {
        assert ([g] + s)[i] == s[i - 1] && ([g] + s)[j] == s[j - 1];
      }
    }
  }

  /** Inserts `g` before the first goal whose rest time is not earlier. */
  function Insert(g: FocusGoal, sorted: seq<FocusGoal>): (r: seq<FocusGoal>)
    ensures multiset(r) == multiset(sorted) + multiset{g}
    ensures |r| == |sorted| + 1
    ensures r[0] == g || (sorted != [] && r[0] == sorted[0])
  {
    if sorted == [] then [g]
    else if sorted[0].restAfter < g.restAfter then
      assert sorted == [sorted[0]] + sorted[1..];
      [sorted[0]] + Insert(g, sorted[1..])
    else [g] + sorted
  }

  /** Insertion into a sorted sequence keeps it sorted. */
  lemma {:induction false} InsertKeepsSorted(g: FocusGoal, sorted: seq<FocusGoal>)
    requires SortedByRest(sorted)
    ensures SortedByRest(Insert(g, sorted))
  {
    if sorted == [] {
    } else if sorted[0].restAfter < g.restAfter {
      var tail := sorted[1..];
      TailSorted(sorted);
      InsertKeepsSorted(g, tail);
      var rest := Insert(g, tail);
      assert sorted[0].restAfter <= rest[0].restAfter by {
        if rest[0] != g {
          assert rest[0] == sorted[1];
        }
      }
      ConsSorted(sorted[0], rest);
    } else {
      ConsSorted(g, sorted);
    }
  }

  /** `slices.SortFunc` with the comparator of `MakeNewStatisticsModel`,
      which orders by `RestAfter` alone; the order among goals with equal
      rest times is left open there, and this definition is one choice. */
  function SortByRest(gs: seq<FocusGoal>): (r: seq<FocusGoal>)
    ensures SortedByRest(r)
    ensures multiset(r) == multiset(gs)
  {
    if gs == [] then []
    else
      var init := SortByRest(gs[..|gs| - 1]);
      InsertKeepsSorted(gs[|gs| - 1], init);
      assert gs == gs[..|gs| - 1] + [gs[|gs| - 1]];
      Insert(gs[|gs| - 1], init)
  }

  /** The rest time at the front of a sorted sequence is its smallest. */
  lemma FrontIsEarliest(a: seq<FocusGoal>, b: seq<FocusGoal>)
    requires SortedByRest(a) && SortedByRest(b) && multiset(a) == multiset(b) && a != []
    ensures b != [] && a[0].restAfter == b[0].restAfter
  {
    assert a[0] in multiset(b);
    assert |b| == |multiset(b)| == |multiset(a)| > 0;
    assert b[0] in multiset(a);
  }

  /** Dropping the front of a sorted sequence keeps it sorted. */
  lemma TailSorted(s: seq<FocusGoal>)
    requires SortedByRest(s) && s != []
    ensures SortedByRest(s[1..])
  {
    var tail := s[1..];
    forall p, q | 0 <= p < q < |tail| ensures tail[p].restAfter <= tail[q].restAfter
    {
      assert tail[p] == s[p + 1] && tail[q] == s[q + 1];
    }
  }

  /** Writing `b[0]` over a `b[i]` that ties with it changes no rest time. */
  lemma OverwriteTiedWithFront(b: seq<FocusGoal>, i: int)
    requires SortedByRest(b) && 0 <= i < |b| && b[i].restAfter == b[0].restAfter
    ensures SortedByRest(b[i := b[0]])
    ensures forall k :: 0 <= k < |b| ==> b[i := b[0]][k].restAfter == b[k].restAfter
  {
    var c := b[i := b[0]];
    assert forall k :: 0 <= k < |b| ==> c[k].restAfter == b[k].restAfter;
  }

  /** Writing `b[0]` over `b[i]` and dropping the front takes out `b[i]`. */
  lemma OverwriteFrontTakesOut(b: seq<FocusGoal>, i: int)
    requires 0 <= i < |b|
    ensures multiset(b[i := b[0]][1..]) == multiset(b) - multiset{b[i]}
  {
    var c := b[i := b[0]];
    assert c == [c[0]] + c[1..];
    if i == 0 {
      assert c == b;
    } else {
      assert c[0] == b[0];
      assert multiset(c) == multiset{c[0]} + multiset(c[1..]);
      assert multiset(c) == multiset(b) - multiset{b[i]} + multiset{b[0]};
      var m := multiset(b) - multiset{b[i]};
      forall x ensures multiset(c[1..])[x] == m[x]
      {
        assert multiset(c)[x] == multiset{c[0]}[x] + multiset(c[1..])[x];
      }
    }
  }

  /** Any two orderings that are sorted permutations of the same goals
      agree on every rest time: the order among ties is all that is open. */
  lemma {:induction false} SortedPermutationsAgreeOnRestTimes(a: seq<FocusGoal>, b: seq<FocusGoal>)
    requires SortedByRest(a) && SortedByRest(b) && multiset(a) == multiset(b)
    ensures |a| == |b|
    ensures forall k :: 0 <= k < |a| ==> a[k].restAfter == b[k].restAfter
    decreases |a|
  {
    assert |a| == |multiset(a)| == |multiset(b)| == |b|;
    if a != [] {
      FrontIsEarliest(a, b);
      assert a[0] in multiset(b);
      var i :| 0 <= i < |b| && b[i] == a[0];
      var c := b[i := b[0]];
      OverwriteTiedWithFront(b, i);
      OverwriteFrontTakesOut(b, i);
      OverwriteFrontTakesOut(a, 0);
      assert a[0 := a[0]] == a;
      TailSorted(a);
      TailSorted(c);
      assert multiset(a[1..]) == multiset(c[1..]);
      SortedPermutationsAgreeOnRestTimes(a[1..], c[1..]);
      forall k | 0 <= k < |a| ensures a[k].restAfter == b[k].restAfter
      {
        if k > 0 {
          assert a[k] == a[1..][k - 1];
          assert c[k] == c[1..][k - 1];
        }
      }
    }
  }

  /** The progress entries for the goals, in order. */
  function Progresses(gs: seq<FocusGoal>, currentMinutes: int): (r: seq<GoalProgress>)
    ensures |r| == |gs|
    ensures forall i :: 0 <= i < |gs| ==> GoalOf(r[i]) == gs[i] && r[i].currentMinutes == currentMinutes
  {
    seq(|gs|, i requires 0 <= i < |gs| => MakeGoalProgress(gs[i], currentMinutes))
  }

  // ---------------------------------------------------------------------
  // Nearest rest time

  /** The loop over the goal progresses: the rest time of a reached goal
      replaces the running value when it is earlier. */
  function NearestRest(fallback: Clock, ps: seq<GoalProgress>): (r: Clock)
    ensures r <= fallback
    ensures forall i :: 0 <= i < |ps| && ProgressReached(ps[i]) ==> r <= ps[i].restAfter
    ensures r == fallback || exists i :: 0 <= i < |ps| && ProgressReached(ps[i]) && r == ps[i].restAfter
  {
    if ps == [] then fallback
    else
      var n := NearestRest(fallback, ps[..|ps| - 1]);
      var p := ps[|ps| - 1];
      if ProgressReached(p) && p.restAfter < n then p.restAfter else n
  }

  /** The nearest rest time is the earliest of the fallback and the rest
      times of the reached goals, so the order the goals are visited in
      does not matter. */
  lemma NearestRestIgnoresOrder(fallback: Clock, ps: seq<GoalProgress>, qs: seq<GoalProgress>)
    requires multiset(ps) == multiset(qs)
    ensures NearestRest(fallback, ps) == NearestRest(fallback, qs)
  {
    var a, b := NearestRest(fallback, ps), NearestRest(fallback, qs);
    if a != fallback {
      var i :| 0 <= i < |ps| && ProgressReached(ps[i]) && a == ps[i].restAfter;
      assert ps[i] in multiset(qs);
      assert b <= a;
    }
    if b != fallback {
      var j :| 0 <= j < |qs| && ProgressReached(qs[j]) && b == qs[j].restAfter;
      assert qs[j] in multiset(ps);
      assert a <= b;
    }
  }

  // ---------------------------------------------------------------------
  // The statistics model

  datatype StatisticsModel = StatisticsModel(
    nearestRest: Clock,
    dayType: string,
    goalProgresses: seq<GoalProgress>,
    totalMinutes: int,
    levelNum: int,
    levelName: string,
    last7Days: seq<int>)

  datatype StatisticsError = NoDayTypeToday

  function GoalsOf(ps: seq<GoalProgress>): (r: seq<FocusGoal>)
    ensures |r| == |ps|
    ensures forall i :: 0 <= i < |ps| ==> r[i] == GoalOf(ps[i])
  {
    seq(|ps|, i requires 0 <= i < |ps| => GoalOf(ps[i]))
  }

  /** `MakeNewStatisticsModel` for the weekday `today`. */
  function MakeNewStatisticsModel(cfg: Config, today: Weekday, currentMinutes: int, totalMinutes: int,
                                  levelNum: int, levelName: string, last7: seq<int>)
    : (r: Result<StatisticsModel, StatisticsError>)
    ensures r.Err? <==> today !in cfg.calendar
    ensures r.Ok? ==> r.value.dayType == cfg.calendar[today].name
    ensures r.Ok? ==> multiset(GoalsOf(r.value.goalProgresses)) == multiset(cfg.calendar[today].goals)
    ensures r.Ok? ==> SortedByRest(GoalsOf(r.value.goalProgresses))
    ensures r.Ok? ==> forall i :: 0 <= i < |r.value.goalProgresses| ==>
      r.value.goalProgresses[i].currentMinutes == currentMinutes
    ensures r.Ok? ==> r.value.nearestRest <= cfg.alwaysRestAfter
    ensures r.Ok? ==> forall g :: g in cfg.calendar[today].goals && Reached(currentMinutes, g.minutes) ==>
      r.value.nearestRest <= g.restAfter
    ensures r.Ok? ==> (r.value.nearestRest == cfg.alwaysRestAfter ||
      exists g :: g in cfg.calendar[today].goals && Reached(currentMinutes, g.minutes) && r.value.nearestRest == g.restAfter)
    ensures r.Ok? ==> (r.value.totalMinutes == totalMinutes && r.value.levelNum == levelNum
      && r.value.levelName == levelName && r.value.last7Days == last7)
  {
    if today !in cfg.calendar then Err(NoDayTypeToday)
    else
      var dayType := cfg.calendar[today];
      var sorted := SortByRest(dayType.goals);
      var progresses := Progresses(sorted, currentMinutes);
      var nearest := NearestRest(cfg.alwaysRestAfter, progresses);
      NearestRestOverGoals(cfg.alwaysRestAfter, dayType.goals, sorted, currentMinutes);
      assert GoalsOf(progresses) == sorted;
      Ok(StatisticsModel(nearest, dayType.name, progresses, totalMinutes, levelNum, levelName, last7))
  }

  /** The nearest rest time stated over the configured goals themselves. */
  lemma NearestRestOverGoals(fallback: Clock, goals: seq<FocusGoal>, sorted: seq<FocusGoal>, currentMinutes: int)
    requires multiset(sorted) == multiset(goals)
    ensures var n := NearestRest(fallback, Progresses(sorted, currentMinutes));
      && (forall g :: g in goals && Reached(currentMinutes, g.minutes) ==> n <= g.restAfter)
      && (n == fallback || exists g :: g in goals && Reached(currentMinutes, g.minutes) && n == g.restAfter)
  {
    var ps := Progresses(sorted, currentMinutes);
    var n := NearestRest(fallback, ps);
    forall g | g in goals && Reached(currentMinutes, g.minutes) ensures n <= g.restAfter
    {
      assert g in multiset(sorted);
      var i :| 0 <= i < |sorted| && sorted[i] == g;
      assert GoalOf(ps[i]) == g;
      assert ProgressReached(ps[i]);
    }
    if n != fallback {
      var i :| 0 <= i < |ps| && ProgressReached(ps[i]) && n == ps[i].restAfter;
      var g := sorted[i];
      assert GoalOf(ps[i]) == g;
      assert g in multiset(goals);
    }
  }

  // ---------------------------------------------------------------------
  // Level lookup

  /** An entry of `Config.Levels`. */
  datatype Level = Level(lvl: int, name: string, threshold: int)

  /** Reference: the length of the longest prefix of `levels` whose every
      threshold is met by `totalMinutes`. */
  function MetPrefixLen(levels: seq<Level>, totalMinutes: int): (k: nat)
    ensures k <= |levels|
    ensures forall i :: 0 <= i < k ==> levels[i].threshold <= totalMinutes
    ensures k < |levels| ==> levels[k].threshold > totalMinutes
  {
    if levels == [] || levels[0].threshold > totalMinutes then 0
    else 1 + MetPrefixLen(levels[1..], totalMinutes)
  }

  /** The threshold scan of the `statistics` command: the last level of the
      met prefix, or `0` and `""` when the first threshold is not met. */
  method CurrentLevel(levels: seq<Level>, totalMinutes: int) returns (levelNum: int, levelName: string)
    ensures var k := MetPrefixLen(levels, totalMinutes);
      if k == 0 then levelNum == 0 && levelName == ""
      else levelNum == levels[k - 1].lvl && levelName == levels[k - 1].name
  {
    levelNum, levelName := 0, "";
    var i := 0;
    while i < |levels|
      invariant 0 <= i <= MetPrefixLen(levels, totalMinutes)
      invariant i == 0 ==> levelNum == 0 && levelName == ""
      invariant i > 0 ==> levelNum == levels[i - 1].lvl && levelName == levels[i - 1].name
    {
      if totalMinutes >= levels[i].threshold {
        levelNum, levelName := levels[i].lvl, levels[i].name;
      } else {
        break;
      }
      i := i + 1;
    }
  }

  /** With thresholds in ascending order, the met prefix is exactly the set
      of met levels, so the scan picks the highest level reached. */
  lemma {:induction false} AscendingLevelsPickHighestMet(levels: seq<Level>, totalMinutes: int)
    requires forall i, j :: 0 <= i < j < |levels| ==> levels[i].threshold <= levels[j].threshold
    ensures forall i :: 0 <= i < |levels| ==>
      (levels[i].threshold <= totalMinutes <==> i < MetPrefixLen(levels, totalMinutes))
  {
    var k := MetPrefixLen(levels, totalMinutes);
    forall i | 0 <= i < |levels| && k <= i ensures levels[i].threshold > totalMinutes
    {
      assert levels[k].threshold <= levels[i].threshold;
    }
  }

  // ---------------------------------------------------------------------
  // The last seven days

  /** A timer as the statistics screen sees it: its fixation date and its
      duration in nanoseconds. */
  datatype TimerEntry = TimerEntry(fixatedAt: Date, spentNanos: int)

  /** Reference: the per-timer whole minutes of the timers dated `d`. */
  function MinutesOn(ts: seq<TimerEntry>, d: Date): int
  {
    if ts == [] then 0
    else
      MinutesOn(ts[..|ts| - 1], d)
      + (if ts[|ts| - 1].fixatedAt == d then WholeMinutes(ts[|ts| - 1].spentNanos) else 0)
  }

  /** The bucketing of the `statistics` command: seven zeroed buckets from
      `today - 6`, every timer's whole minutes added to the bucket of its
      date (a date outside the window opens a bucket nobody reads), then
      the seven buckets read oldest first. */
  method LastSevenDays(today: Date, timers: seq<TimerEntry>) returns (last7: seq<int>)
    ensures |last7| == 7
    ensures forall i :: 0 <= i < 7 ==> last7[i] == MinutesOn(timers, today - 6 + i)
  {
    var start7 := today - 6;
    var buckets: map<Date, int> := map[];
    var i := 0;
    while i < 7
      invariant 0 <= i <= 7
      invariant forall d :: start7 <= d < start7 + i ==> d in buckets && buckets[d] == 0
    {
      buckets := buckets[start7 + i := 0];
      i := i + 1;
    }
    var j := 0;
    while j < |timers|
      invariant 0 <= j <= |timers|
      invariant forall d :: start7 <= d < start7 + 7 ==> d in buckets && buckets[d] == MinutesOn(timers[..j], d)
    {
      var t := timers[j];
      var previous := if t.fixatedAt in buckets then buckets[t.fixatedAt] else 0;
      buckets := buckets[t.fixatedAt := previous + WholeMinutes(t.spentNanos)];
      assert timers[..j + 1][..j] == timers[..j];
      j := j + 1;
    }
    assert timers[..|timers|] == timers;
    last7 := [];
    i := 0;
    while i < 7
      invariant 0 <= i <= 7
      invariant |last7| == i
      invariant forall k :: 0 <= k < i ==> last7[k] == MinutesOn(timers, start7 + k)
    {
      last7 := last7 + [buckets[start7 + i]];
      i := i + 1;
    }
  }

  /** A timer outside the window leaves every reported bucket unchanged. */
  lemma TimerOutsideWindowIsNotReported(ts: seq<TimerEntry>, t: TimerEntry, today: Date, i: int)
    requires 0 <= i < 7 && !(today - 6 <= t.fixatedAt <= today)
    ensures MinutesOn(ts + [t], today - 6 + i) == MinutesOn(ts, today - 6 + i)
  {
    assert (ts + [t])[..|ts + [t]| - 1] == ts;
  }

  /** The bucket for a date counts per-timer truncated minutes, which for
      non-negative durations is at most the truncated sum of the durations
      of that day's timers. */
  lemma {:induction false} BucketAtMostTruncatedDayTotal(ts: seq<TimerEntry>, d: Date)
    requires forall i :: 0 <= i < |ts| ==> ts[i].spentNanos >= 0
    ensures DayNanos(ts, d) >= 0
    ensures MinutesOn(ts, d) <= WholeMinutes(DayNanos(ts, d))
  {
    if ts != [] {
      var init := ts[..|ts| - 1];
      BucketAtMostTruncatedDayTotal(init, d);
      if ts[|ts| - 1].fixatedAt == d {
        TruncationIsSuperadditive(DayNanos(init, d), ts[|ts| - 1].spentNanos);
      }
    }
  }

  /** The summed duration of the timers dated `d`. */
  function DayNanos(ts: seq<TimerEntry>, d: Date): int
  {
    if ts == [] then 0
    else
      DayNanos(ts[..|ts| - 1], d) + (if ts[|ts| - 1].fixatedAt == d then ts[|ts| - 1].spentNanos else 0)
  }

  // ---------------------------------------------------------------------
  // Sparkline

  /** The ASCII gradient, lowest first. */
  const Blocks: string := " .:-=+*#%@"

  /** `math.Round(num / den)` for `den > 0`: half-way cases round away from
      zero. */
  function RoundHalfAway(num: int, den: int): (r: int)
    requires den > 0
    ensures num >= 0 ==> r >= 0
    ensures num <= 0 ==> r <= 0
  {
    if num >= 0 then (2 * num + den) / (2 * den) else -((-2 * num + den) / (2 * den))
  }

  /** The rounding lands within half a step of the exact quotient, and a
      half-way quotient goes away from zero. */
  lemma RoundHalfAwayIsNearest(num: int, den: int)
    requires den > 0
    ensures var r := RoundHalfAway(num, den);
      && 2 * (num - r * den) <= den && 2 * (r * den - num) <= den
      && (num >= 0 ==> 2 * (num - r * den) < den)
      && (num < 0 ==> 2 * (r * den - num) < den)
  {
    var r := RoundHalfAway(num, den);
    if num >= 0 {
      var q := 2 * num + den;
      assert q == r * (2 * den) + q % (2 * den);
    } else {
      var q := -2 * num + den;
      assert q == -r * (2 * den) + q % (2 * den);
    }
  }

  /** Integer division by a positive number is monotone. */
  lemma DivIsMonotone(a: int, b: int, d: int)
    requires d > 0 && a <= b
    ensures a / d <= b / d
  {
    var qa, qb := a / d, b / d;
    assert qa * d <= a by {
      assert a == qa * d + a % d;
    }
    assert b < (qb + 1) * d by {
      assert b == qb * d + b % d;
    }
    assert (qa - qb - 1) * d < 0;
  }

  lemma RoundHalfAwayIsMonotone(a: int, b: int, den: int)
    requires den > 0 && a <= b
    ensures RoundHalfAway(a, den) <= RoundHalfAway(b, den)
  {
    if a >= 0 {
      DivIsMonotone(2 * a + den, 2 * b + den, 2 * den);
    } else if b < 0 {
      DivIsMonotone(-2 * b + den, -2 * a + den, 2 * den);
    }
  }

  /** The largest value, starting from 0 as the Go loop does. */
  function MaxOf(values: seq<int>): (m: int)
    ensures m >= 0
    ensures forall i :: 0 <= i < |values| ==> values[i] <= m
    ensures m == 0 || exists i :: 0 <= i < |values| && values[i] == m
  {
    if values == [] then 0
    else
      var m := MaxOf(values[..|values| - 1]);
      if values[|values| - 1] > m then values[|values| - 1] else m
  }

  /** The gradient index of one value: the rounded proportion of nine
      steps, clamped to the gradient, and lifted to the first visible
      symbol for a positive value. */
  function SparkIndex(v: int, max: int): (idx: int)
    requires max > 0
    ensures 0 <= idx < |Blocks|
    ensures idx > 0 <==> v > 0
  {
    var raw := RoundHalfAway(v * (|Blocks| - 1), max);
    var clamped := if raw < 0 then 0 else if raw >= |Blocks| then |Blocks| - 1 else raw;
    if v > 0 && clamped == 0 then 1 else clamped
  }

  /** `strings.Repeat` of a single symbol. */
  function Repeat(c: char, n: nat): (r: string)
    ensures |r| == n
    ensures forall i :: 0 <= i < n ==> r[i] == c
  {
    if n == 0 then "" else Repeat(c, n - 1) + [c]
  }

  /** `renderSparkline`. */
  function RenderSparkline(values: seq<int>): (r: string)
    ensures |r| == |values|
    ensures forall i :: 0 <= i < |values| ==> r[i] in Blocks
  {
    if values == [] then ""
    else
      var max := MaxOf(values);
      if max == 0 then Repeat(Blocks[0], |values|)
      else seq(|values|, i requires 0 <= i < |values| => Blocks[SparkIndex(values[i], max)])
  }

  /** The position of a symbol in the gradient. */
  function Rank(c: char): int
  {
    if c == ' ' then 0 else if c == '.' then 1 else if c == ':' then 2 else if c == '-' then 3
    else if c == '=' then 4 else if c == '+' then 5 else if c == '*' then 6 else if c == '#' then 7
    else if c == '%' then 8 else 9
  }

  lemma RankOfBlock(idx: int)
    requires 0 <= idx < |Blocks|
    ensures Rank(Blocks[idx]) == idx
  {
  }

  /** Division of `q * d + rem` by `d` recovers `q` when `0 <= rem < d`. */
  lemma DivOfMultiplePlus(q: int, d: int, rem: int)
    requires d > 0 && 0 <= rem < d
    ensures (q * d + rem) / d == q
  {
    var x := q * d + rem;
    var k := x / d - q;
    assert x == (x / d) * d + x % d;
    assert k * d == rem - x % d;
  }

  /** The largest value rounds to the top step. */
  lemma MaxRoundsToTop(max: int)
    requires max > 0
    ensures RoundHalfAway(max * 9, max) == 9
  {
    assert 2 * (max * 9) + max == 9 * (2 * max) + max;
    DivOfMultiplePlus(9, 2 * max, max);
  }

  /** The symbol of one value, once some value is positive. */
  lemma SparkSymbol(values: seq<int>, i: int)
    requires 0 <= i < |values| && MaxOf(values) > 0
    ensures RenderSparkline(values)[i] == Blocks[SparkIndex(values[i], MaxOf(values))]
  {
  }

  /** Non-positive values are blank and positive values never are. */
  lemma SparklineBlankExactlyForNonPositive(values: seq<int>, i: int)
    requires 0 <= i < |values|
    ensures RenderSparkline(values)[i] == ' ' <==> values[i] <= 0
  {
    var max := MaxOf(values);
    if max > 0 {
      SparkSymbol(values, i);
      if values[i] <= 0 {
        assert values[i] * 9 <= 0;
      }
    }
  }

  /** The largest value, when positive, renders as `@`. */
  lemma SparklineMaxIsTop(values: seq<int>, i: int)
    requires 0 <= i < |values| && values[i] > 0 && values[i] == MaxOf(values)
    ensures RenderSparkline(values)[i] == '@'
  {
    SparkSymbol(values, i);
    MaxRoundsToTop(values[i]);
  }

  /** A larger value never gets a lower symbol. */
  lemma SparklineIsMonotone(values: seq<int>, i: int, j: int)
    requires 0 <= i < |values| && 0 <= j < |values| && values[i] <= values[j]
    ensures Rank(RenderSparkline(values)[i]) <= Rank(RenderSparkline(values)[j])
  {
    var max := MaxOf(values);
    if max > 0 {
      SparkSymbol(values, i);
      SparkSymbol(values, j);
      assert values[i] * 9 <= values[j] * 9;
      RoundHalfAwayIsMonotone(values[i] * 9, values[j] * 9, max);
      RankOfBlock(SparkIndex(values[i], max));
      RankOfBlock(SparkIndex(values[j], max));
    } else {
      RankOfBlock(0);
    }
  }

  /** An all-zero input renders as blanks. */
  lemma SparklineOfZeros(values: seq<int>)
    requires forall i :: 0 <= i < |values| ==> values[i] == 0
    ensures RenderSparkline(values) == Repeat(' ', |values|)
  {
    forall i | 0 <= i < |values| ensures RenderSparkline(values)[i] == ' '
    {
      SparklineBlankExactlyForNonPositive(values, i);
    }
  }

  /** For a positive value the symbol is the nearest of the nine steps to
      `9 * v / max` (half-way rounds up), except that a value below half a
      step shows the first visible symbol. */
  lemma SparkIndexIsNearestStep(v: int, max: int)
    requires 0 < v <= max
    ensures var idx := SparkIndex(v, max);
      && 1 <= idx <= 9
      && (idx == 1 || (2 * (v * 9 - idx * max) < max && 2 * (idx * max - v * 9) <= max))
  {
    RoundHalfAwayIsNearest(v * 9, max);
    assert v * 9 <= max * 9;
    RoundHalfAwayIsMonotone(v * 9, max * 9, max);
    MaxRoundsToTop(max);
  }

  // ---------------------------------------------------------------------
  // The statistics command

  /** The figures of the `statistics` command from its three timer queries:
      today's timers (minutes truncated after summing), all timers and the
      last seven days' timers (minutes truncated per timer). */
  method Statistics(cfg: Config, levels: seq<Level>, today: Date,
                    todayTimers: seq<int>, allTimers: seq<int>, sevenTimers: seq<TimerEntry>)
    returns (r: Result<StatisticsModel, StatisticsError>)
    ensures r.Err? <==> WeekdayOf(today) !in cfg.calendar
    ensures r.Ok? ==> r.value.totalMinutes == MinutesPerTimer(allTimers)
    ensures r.Ok? ==> r.value.dayType == cfg.calendar[WeekdayOf(today)].name
    ensures r.Ok? ==> multiset(GoalsOf(r.value.goalProgresses)) == multiset(cfg.calendar[WeekdayOf(today)].goals)
    ensures r.Ok? ==> SortedByRest(GoalsOf(r.value.goalProgresses))
    ensures r.Ok? ==> var current := WholeMinutes(TotalDuration(todayTimers));
      && r.value.nearestRest <= cfg.alwaysRestAfter
      && (forall g :: g in cfg.calendar[WeekdayOf(today)].goals && Reached(current, g.minutes) ==>
            r.value.nearestRest <= g.restAfter)
      && (r.value.nearestRest == cfg.alwaysRestAfter ||
          exists g :: g in cfg.calendar[WeekdayOf(today)].goals && Reached(current, g.minutes) && r.value.nearestRest == g.restAfter)
    ensures r.Ok? ==> forall i :: 0 <= i < |r.value.goalProgresses| ==>
      r.value.goalProgresses[i].currentMinutes == WholeMinutes(TotalDuration(todayTimers))
    ensures r.Ok? ==> |r.value.last7Days| == 7
    ensures r.Ok? ==> forall i :: 0 <= i < 7 ==> r.value.last7Days[i] == MinutesOn(sevenTimers, today - 6 + i)
    ensures r.Ok? ==> var k := MetPrefixLen(levels, MinutesPerTimer(allTimers));
      if k == 0 then r.value.levelNum == 0 && r.value.levelName == ""
      else r.value.levelNum == levels[k - 1].lvl && r.value.levelName == levels[k - 1].name
  {
    var currentMinutes := WholeMinutes(TotalDuration(todayTimers));
    var totalMinutes := MinutesPerTimer(allTimers);
    var levelNum, levelName := CurrentLevel(levels, totalMinutes);
    var last7 := LastSevenDays(today, sevenTimers);
    r := MakeNewStatisticsModel(cfg, WeekdayOf(today), currentMinutes, totalMinutes, levelNum, levelName, last7);
  }
}

=== FILE: sums.dfy ===
/** Sums over the values of a finite map, independent of the order in which
    the keys are visited (Go map iteration order is unspecified). */
module Sums {

  ghost function PickKey<K, V>(m: map<K, V>): (k: K)
    requires m != map[]
    ensures k in m
  {
    var k :| k in m; k
  }

  /** The sum of `f(v)` over every value `v` of `m`. */
  ghost function MapSum<K, V>(m: map<K, V>, f: V -> int): int
    decreases |m|
  {
    if m == map[] then 0
    else
      var k := PickKey(m);
      f(m[k]) + MapSum(m - {k}, f)
  }

  /** Any key may be taken out first: the sum does not depend on the order. */
  lemma {:induction false} MapSumRemove<K, V>(m: map<K, V>, f: V -> int, x: K)
    requires x in m
    ensures MapSum(m, f) == f(m[x]) + MapSum(m - {x}, f)
    decreases |m|
  {
    var k := PickKey(m);
    if k != x {
      MapSumRemove(m - {k}, f, x);
      MapSumRemove(m - {x}, f, k);
      assert (m - {k}) - {x} == (m - {x}) - {k};
    }
  }

  /** Overwriting (or adding) one key changes the sum by the difference of
      the new and the old value at that key. */
  lemma MapSumUpdate<K, V>(m: map<K, V>, f: V -> int, x: K, v: V)
    ensures MapSum(m[x := v], f) == MapSum(m, f) + f(v) - (if x in m then f(m[x]) else 0)
  {
    MapSumRemove(m[x := v], f, x);
    assert m[x := v] - {x} == m - {x};
    if x in m {
      MapSumRemove(m, f, x);
    } else {
      assert m - {x} == m;
    }
  }
}

=== FILE: super_productivity.dfy ===
/** The Super Productivity importer's pure part
    (internal/imprt/superProductivityApp.go): merging the three entity maps
    and expanding every (task, day) entry into one timer. JSON decoding is out
    of scope; `time.Parse(DateLayout, ...)` is the parameter `parseDate`. */
module SuperProductivity {
  import opened Wrappers
  import opened Calendar
  import Sums

  datatype TaskEntity = TaskEntity(timeSpentOnDay: map<string, int>, title: string, notes: string)

  type Entities = map<string, TaskEntity>

  /** `dataContent`: the live tasks and the two archives. */
  datatype DataContent = DataContent(task: Entities, archiveOld: Entities, archiveYoung: Entities)

  /** `extractAllEntities`: the union of the three maps; on a shared id the
      young archive wins over the old archive, which wins over the live task. */
  function ExtractAllEntities(dc: DataContent): (r: Entities)
    ensures r.Keys == dc.task.Keys + dc.archiveOld.Keys + dc.archiveYoung.Keys
    ensures forall k :: k in dc.archiveYoung ==> r[k] == dc.archiveYoung[k]
    ensures forall k :: k in dc.archiveOld && k !in dc.archiveYoung ==> r[k] == dc.archiveOld[k]
    ensures forall k :: k in dc.task && k !in dc.archiveOld && k !in dc.archiveYoung ==> r[k] == dc.task[k]
  {
    dc.task + dc.archiveOld + dc.archiveYoung
  }

  /** `models.TimerModel`; `spentNanos` is the `time.Duration` in nanoseconds. */
  datatype Timer = Timer(
    id: Option<int>,
    externalId: Option<string>,
    createdAt: Option<Instant>,
    name: string,
    description: string,
    spentNanos: int,
    fixatedAt: Date)

  const Source: string := "SuperProductivity"
  const NanosPerMilli: int := 1_000_000

  /** `generateExternalId`: `"SuperProductivity:<taskId>:<dateStr>"`. */
  function ExternalId(taskId: string, dateStr: string): string
  {
    Source + ":" + taskId + ":" + dateStr
  }

  /** The date key is the suffix after the last separator. */
  lemma ExternalIdLayout(t: string, d: string)
    ensures |ExternalId(t, d)| == |Source| + |t| + |d| + 2
    ensures ExternalId(t, d)[|ExternalId(t, d)| - |d| - 1] == ':'
    ensures forall i :: 0 <= i < |d| ==> ExternalId(t, d)[|ExternalId(t, d)| - |d| + i] == d[i]
  {
  }

  /** When the date keys hold no `:`, equal ids come from the same task
      and date: distinct entries never share an id. */
  lemma ExternalIdInjective(t1: string, d1: string, t2: string, d2: string)
    requires ':' !in d1 && ':' !in d2
    requires ExternalId(t1, d1) == ExternalId(t2, d2)
    ensures t1 == t2 && d1 == d2
  {
    var s := ExternalId(t1, d1);
    var h := |Source| + 1;
    assert s == (Source + ":" + t1) + ":" + d1;
    assert s == (Source + ":" + t2) + ":" + d2;
    if |d1| != |d2| {
      ExternalIdLayout(t1, d1);
      ExternalIdLayout(t2, d2);
      assert false;
    }
    assert d1 == s[|s| - |d1|..] == d2;
    assert t1 == s[h..|s| - |d1| - 1] == t2;
  }

  /** The timer produced for one (task, day) entry: no id, no creation time,
      the task's title and notes, and the entry's value read as milliseconds. */
  function MakeTimer(taskId: string, task: TaskEntity, dateStr: string, fixatedAt: Date): Timer
    requires dateStr in task.timeSpentOnDay
  {
    Timer(None, Some(ExternalId(taskId, dateStr)), None, task.title, task.notes,
          task.timeSpentOnDay[dateStr] * NanosPerMilli, fixatedAt)
  }

  function EntryCount(e: TaskEntity): int
  {
    |e.timeSpentOnDay|
  }

  function Restrict(entities: Entities, ids: set<string>): Entities
  {
    map k | k in entities && k in ids :: entities[k]
  }

  predicate HasEntry(entities: Entities, id: string, dateStr: string)
  {
    id in entities && dateStr in entities[id].timeSpentOnDay
  }

  datatype BatchError = BadDate(dateStr: string)

  /** The keys of a Go map in the order a `range` loop visits them, which
      is left unspecified: each key exactly once. */
  method EnumerateKeys<K>(keys: set<K>) returns (ks: seq<K>)
    ensures |ks| == |keys|
    ensures forall k :: k in keys <==> k in ks
    ensures forall i, j :: 0 <= i < j < |ks| ==> ks[i] != ks[j]
  {
    ks := [];
    var todo := keys;
    while todo != {}
      invariant todo <= keys && |ks| + |todo| == |keys|
      invariant forall k :: k in keys <==> k in ks || k in todo
      invariant forall i :: 0 <= i < |ks| ==> ks[i] !in todo
      invariant forall i, j :: 0 <= i < j < |ks| ==> ks[i] != ks[j]
      decreases |todo|
    {
      var k :| k in todo;
      ks := ks + [k];
      todo := todo - {k};
    }
  }

  /** The timers of one expanded task, paired with their entries. */
  predicate ExpandedFrom(entities: Entities, parseDate: string -> Option<Date>, id: string,
                         expanded: seq<Timer>, dates: seq<string>)
    requires id in entities
  {
    && |dates| == |expanded| == |entities[id].timeSpentOnDay|
    && (forall i :: 0 <= i < |expanded| ==>
         && dates[i] in entities[id].timeSpentOnDay && parseDate(dates[i]).Some?
         && expanded[i] == MakeTimer(id, entities[id], dates[i], parseDate(dates[i]).value))
    && Distinct(dates)
    && (forall ds :: ds in entities[id].timeSpentOnDay ==> ds in dates)
  }

  /** The inner loop of `createBatchTimers`: one timer per date key of the
      task `id`, in an unspecified order; the ghost `dates` lists the keys
      used. */
  method ExpandTask(entities: Entities, id: string, parseDate: string -> Option<Date>)
    returns (r: Result<seq<Timer>, BatchError>, ghost dates: seq<string>)
    requires id in entities
    ensures r.Err? <==> exists ds :: HasEntry(entities, id, ds) && parseDate(ds).None?
    ensures r.Err? ==> HasEntry(entities, id, r.error.dateStr) && parseDate(r.error.dateStr).None?
    ensures r.Ok? ==> ExpandedFrom(entities, parseDate, id, r.value, dates)
  {
    var task := entities[id];
    var keys := EnumerateKeys(task.timeSpentOnDay.Keys);
    dates := keys;
    var timers: seq<Timer> := [];
    var i := 0;
    while i < |keys|
      invariant 0 <= i <= |keys| && |timers| == i
      invariant forall k :: 0 <= k < i ==> parseDate(keys[k]).Some?
      invariant forall k :: 0 <= k < i ==> timers[k] == MakeTimer(id, task, keys[k], parseDate(keys[k]).value)
    {
      var ds := keys[i];
      match parseDate(ds)
      case None =>
        return Err(BadDate(ds)), dates;
      case Some(fixatedAt) =>
        timers := timers + [MakeTimer(id, task, ds, fixatedAt)];
        i := i + 1;
    }
    r := Ok(timers);
  }

  /** `t` is the timer `createBatchTimers` builds for the entry `src`. */
  predicate TimerFor(entities: Entities, parseDate: string -> Option<Date>, src: (string, string), t: Timer)
  {
    && HasEntry(entities, src.0, src.1)
    && parseDate(src.1).Some?
    && t == MakeTimer(src.0, entities[src.0], src.1, parseDate(src.1).value)
  }

  predicate Distinct<T(==)>(s: seq<T>)
  {
    forall i, j :: 0 <= i < j < |s| ==> s[i] != s[j]
  }

  /** The loop state after the tasks in `done`: every timer comes from an
      entry of a finished task, no entry twice, every such entry present. */
  ghost predicate BatchSoFar(entities: Entities, parseDate: string -> Option<Date>, done: set<string>,
                             timers: seq<Timer>, sources: seq<(string, string)>)
  {
    && |sources| == |timers|
    && (forall i :: 0 <= i < |timers| ==> sources[i].0 in done && TimerFor(entities, parseDate, sources[i], timers[i]))
    && Distinct(sources)
    && (forall id, ds :: id in done && HasEntry(entities, id, ds) ==> (id, ds) in sources)
    && |timers| == Sums.MapSum(Restrict(entities, done), EntryCount)
  }

  function Pairs(id: string, dates: seq<string>): (r: seq<(string, string)>)
    ensures |r| == |dates|
    ensures forall i :: 0 <= i < |dates| ==> r[i] == (id, dates[i])
  {
    seq(|dates|, i requires 0 <= i < |dates| => (id, dates[i]))
  }

  lemma AppendKeepsTimerFor(entities: Entities, parseDate: string -> Option<Date>, done: set<string>,
                            timers: seq<Timer>, sources: seq<(string, string)>,
                            id: string, expanded: seq<Timer>, dates: seq<string>)
    requires id in entities && |sources| == |timers|
    requires forall i :: 0 <= i < |timers| ==> sources[i].0 in done && TimerFor(entities, parseDate, sources[i], timers[i])
    requires ExpandedFrom(entities, parseDate, id, expanded, dates)
    ensures var ts, ss := timers + expanded, sources + Pairs(id, dates);
      forall i :: 0 <= i < |ts| ==> ss[i].0 in done + {id} && TimerFor(entities, parseDate, ss[i], ts[i])
  {
    var ts, ss := timers + expanded, sources + Pairs(id, dates);
    forall i | 0 <= i < |ts|
      ensures ss[i].0 in done + {id} && TimerFor(entities, parseDate, ss[i], ts[i])
    {
      if i < |timers| {
        assert ss[i] == sources[i] && ts[i] == timers[i];
      } else {
        assert ss[i] == (id, dates[i - |timers|]) && ts[i] == expanded[i - |timers|];
      }
    }
  }

  lemma AppendKeepsDistinct(done: set<string>, sources: seq<(string, string)>, id: string, dates: seq<string>)
    requires id !in done && Distinct(sources) && Distinct(dates)
    requires forall i :: 0 <= i < |sources| ==> sources[i].0 in done
    ensures Distinct(sources + Pairs(id, dates))
  {
    var ss := sources + Pairs(id, dates);
    forall i, j | 0 <= i < j < |ss| ensures ss[i] != ss[j]
    {
      if j < |sources| {
        assert ss[i] == sources[i] && ss[j] == sources[j];
      } else if i < |sources| {
        assert ss[i] == sources[i];
        assert ss[j].0 == id;
      } else {
        assert ss[i] == (id, dates[i - |sources|]) && ss[j] == (id, dates[j - |sources|]);
      }
    }
  }

  lemma AppendKeepsCoverage(entities: Entities, done: set<string>, sources: seq<(string, string)>,
                            id: string, dates: seq<string>)
    requires forall id', ds :: id' in done && HasEntry(entities, id', ds) ==> (id', ds) in sources
    requires id in entities && forall ds :: ds in entities[id].timeSpentOnDay ==> ds in dates
    ensures forall id', ds :: id' in done + {id} && HasEntry(entities, id', ds) ==> (id', ds) in sources + Pairs(id, dates)
  {
    var ss := sources + Pairs(id, dates);
    forall id', ds | id' in done + {id} && HasEntry(entities, id', ds)
      ensures (id', ds) in ss
    {
      if id' == id {
        var i :| 0 <= i < |dates| && dates[i] == ds;
        assert ss[|sources| + i] == (id, ds);
      } else {
        assert (id', ds) in sources;
        var i :| 0 <= i < |sources| && sources[i] == (id', ds);
        assert ss[i] == (id', ds);
      }
    }
  }

  lemma AppendKeepsCount(entities: Entities, done: set<string>, count: int, id: string)
    requires id in entities && id !in done
    requires count == Sums.MapSum(Restrict(entities, done), EntryCount)
    ensures count + EntryCount(entities[id]) == Sums.MapSum(Restrict(entities, done + {id}), EntryCount)
  {
    assert Restrict(entities, done + {id}) - {id} == Restrict(entities, done);
    Sums.MapSumRemove(Restrict(entities, done + {id}), EntryCount, id);
  }

  /** Appending the expansion of one more task keeps `BatchSoFar`. */
  lemma AppendTask(entities: Entities, parseDate: string -> Option<Date>, done: set<string>,
                   timers: seq<Timer>, sources: seq<(string, string)>,
                   id: string, expanded: seq<Timer>, dates: seq<string>)
    requires id in entities && id !in done
    requires BatchSoFar(entities, parseDate, done, timers, sources)
    requires ExpandedFrom(entities, parseDate, id, expanded, dates)
    ensures BatchSoFar(entities, parseDate, done + {id}, timers + expanded, sources + Pairs(id, dates))
  {
    AppendKeepsTimerFor(entities, parseDate, done, timers, sources, id, expanded, dates);
    AppendKeepsDistinct(done, sources, id, dates);
    AppendKeepsCoverage(entities, done, sources, id, dates);
    AppendKeepsCount(entities, done, |timers|, id);
  }

  /** Once every task is done, every entry's date parsed and the timers
      number the total of entries. */
  lemma BatchComplete(entities: Entities, parseDate: string -> Option<Date>,
                      timers: seq<Timer>, sources: seq<(string, string)>)
    requires BatchSoFar(entities, parseDate, entities.Keys, timers, sources)
    ensures |timers| == Sums.MapSum(entities, EntryCount)
    ensures forall id, ds :: HasEntry(entities, id, ds) ==> parseDate(ds).Some?
  {
    assert Restrict(entities, entities.Keys) == entities;
    forall id, ds | HasEntry(entities, id, ds) ensures parseDate(ds).Some? {
      assert (id, ds) in sources;
      var i :| 0 <= i < |sources| && sources[i] == (id, ds);
      assert TimerFor(entities, parseDate, sources[i], timers[i]);
    }
  }

  /** `createBatchTimers`: one timer per (task id, date key) pair, tasks and
      dates visited in an unspecified order; any date key that does not parse
      fails the whole batch with no timers. The ghost `sources` names the pair
      behind each timer. */
  method CreateBatchTimers(entities: Entities, parseDate: string -> Option<Date>)
    returns (r: Result<seq<Timer>, BatchError>, ghost sources: seq<(string, string)>)
    ensures r.Err? <==> exists id, ds :: HasEntry(entities, id, ds) && parseDate(ds).None?
    ensures r.Err? ==> exists id :: HasEntry(entities, id, r.error.dateStr) && parseDate(r.error.dateStr).None?
    ensures r.Ok? ==> |r.value| == Sums.MapSum(entities, EntryCount)
    ensures r.Ok? ==> |sources| == |r.value|
    ensures r.Ok? ==> forall i :: 0 <= i < |r.value| ==> TimerFor(entities, parseDate, sources[i], r.value[i])
    ensures r.Ok? ==> Distinct(sources)
    ensures r.Ok? ==> forall id, ds :: HasEntry(entities, id, ds) ==> (id, ds) in sources
  {
    var timers: seq<Timer> := [];
    sources := [];
    var todo := entities.Keys;
    ghost var done: set<string> := {};
    assert Restrict(entities, {}) == map[];
    while todo != {}
      invariant todo + done == entities.Keys && todo !! done
      invariant BatchSoFar(entities, parseDate, done, timers, sources)
      decreases |todo|
    {
      var id :| id in todo;
      var expanded, dates := ExpandTask(entities, id, parseDate);
      if expanded.Err? {
        return Err(expanded.error), sources;
      }
      ghost var added := Pairs(id, dates);
      AppendTask(entities, parseDate, done, timers, sources, id, expanded.value, dates);
      timers := timers + expanded.value;
      sources := sources + added;
      todo := todo - {id};
      done := done + {id};
    }
    BatchComplete(entities, parseDate, timers, sources);
    r := Ok(timers);
  }
}

=== FILE: wallet_store.dfy ===
/** The `wallet` table (internal/storage/wallet.go) as an abstract medal map.
    `Save` upserts every entry it is given, zero counts included, and never
    deletes; a failing statement rolls the transaction back. */
module WalletStore {
  import opened Wrappers
  import opened Medals

  type Wallet = Counts

  /** The statement of the save transaction that fails, if any. */
  datatype SaveStep = Begin | Upsert(medal: Medal) | Commit

  datatype WalletError = ReadFailed | SaveFailed(step: SaveStep)

  /** `Load`: every stored row; an empty, non-nil map for an empty table. */
  function Load(stored: Wallet, readFails: bool): (r: Result<Wallet, WalletError>)
    ensures r.Err? <==> readFails
    ensures r.Ok? ==> forall m :: Get(r.value, m) == Get(stored, m)
    ensures r.Ok? ==> r.value.Keys == stored.Keys
  {
    if readFails then Err(ReadFailed) else Ok(stored)
  }

  predicate SaveHits(fault: Option<SaveStep>, w: Wallet)
  {
    match fault
    case None => false
    case Some(Upsert(m)) => m in w
    case Some(_) => true
  }

  datatype Saved = Saved(store: Wallet, error: Option<WalletError>)

  /** `Save`: one upsert per entry of `w` inside a transaction. */
  function Save(stored: Wallet, w: Wallet, fault: Option<SaveStep>): (r: Saved)
    ensures r.error.Some? <==> SaveHits(fault, w)
    ensures r.error.Some? ==> r.store == stored
    ensures r.error.None? ==> r.store.Keys == stored.Keys + w.Keys
    ensures r.error.None? ==> forall m :: m in w ==> r.store[m] == w[m]
    ensures r.error.None? ==> forall m :: m in stored && m !in w ==> r.store[m] == stored[m]
  {
    if SaveHits(fault, w) then Saved(stored, Some(SaveFailed(fault.value)))
    else Saved(stored + w, None)
  }

  /** Saving what was loaded changes nothing. */
  lemma SaveOfLoadIsIdentity(stored: Wallet)
    ensures Save(stored, Load(stored, false).value, None) == Saved(stored, None)
  {
  }

  /** Unlike daily snapshots, a zero count is written as a row. */
  lemma ZeroCountsAreWritten(stored: Wallet, w: Wallet, m: Medal)
    requires m in w && w[m] == 0
    ensures m in Save(stored, w, None).store && Save(stored, w, None).store[m] == 0
  {
  }
}

=== FILE: wrappers.dfy ===
/** Failure-carrying values used in place of Go's `(value, error)` returns. */
module Wrappers {

  datatype Option<+T> = None | Some(value: T)

  /** `Ok(v)` is Go's `(v, nil)`; `Err(e)` is a non-nil error `e`. */
  datatype Result<+T, +E> = Ok(value: T) | Err(error: E)

  /** A Go `error` return with no value next to it. */
  datatype Outcome<+E> = Pass | Fail(error: E)
}
